=== FILE: README.md ===
# Conference organization: a Dafny model of the endpoint rules

This project models the pure rules inside the conference-organization App
Engine endpoints (`conference.py`) and proves properties of them. It covers:

- the conference query builder (`_formatFilters`, `_getQuery`), which
  translates client filter clauses through the `FIELDS` and `OPERATORS`
  tables, enforces the store's one-inequality-field rule, picks the sort
  order and converts `month` / `maxAttendees` values with `int()`;
- a meaning for the built query over an in-memory list of conferences, and
  a proof that it selects exactly the conferences every clause asks for;
- the registration transition (`_conferenceRegistration`) on the caller's
  `conferenceKeysToAttend` list and the conference's `seatsAvailable`;
- the wishlist: removal (`deleteSessionInWishlist`) and addition
  (`addSessionToWishlist`);
- conference creation defaults and derived fields (`_createConferenceObject`)
  and the partial update (`_updateConferenceObject`);
- the "almost sold out" announcement rule (`_cacheAnnouncement`);
- session creation with its featured-speaker trigger (`_createSessionObject`)
  and the "different type, earlier start" scan
  (`getConferenceSessionsByTypeAndStartTime`).

Websafe keys are opaque tokens (`string`). Dates are (year, month, day)
records and times are minutes since midnight; `strptime` parsing is not
modelled. Every exception the source raises is a `Failure` of a `Result`:
`BadRequest`, `NotFound`, `Forbidden`, `Conflict`, `NotAnInteger`, which
stands for the uncaught `ValueError` from `int()`, and `MissingInteger`, which
stands for the uncaught `TypeError` from `int(None)`. The Unauthorized error
and the errors of `strptime` are not modelled (see "## Left out").

Modules: `Wrappers` (Option, Result), `Errors`, `Lists` (Python list
operations), `Decimal` (`int()` and `str()`), `Conferences`, `QueryFilters`,
`QuerySemantics`, `Registration`, `Wishlist`, `Sessions`.

Behaviour of the code worth knowing:
- A non-numeric `month`/`maxAttendees` filter value raises an uncaught
  `ValueError` (a server error), not an invalid-argument error. A filter sent
  without a value reaches `int(None)` on those fields, an uncaught
  `TypeError`. On `CITY`/`TOPIC` it becomes a filter against `None`.
- On creation, `seatsAvailable` equals `maxAttendees` only when
  `maxAttendees > 0`. Otherwise it is the request's `seatsAvailable`, or 0.
- An update copies every supplied field, including `organizerUserId` and
  `seatsAvailable`.
- Three discrepancies are source bugs. They are listed under Findings.

## Model

| member | source | states |
|---|---|---|
| QueryFilters.TablesInjective | conference.py:61-75 | distinct client names in FIELDS and OPERATORS give distinct fields and operators, and distinct fields and operators have distinct property names and operator symbols |
| QueryFilters.FormatFilters | conference.py:327-352 | succeeds exactly when every clause names a known field and operator and at most one field carries an inequality; the result has one filter per clause, in input order, translated through the tables; the inequality field is None exactly when every clause is `=`, and otherwise it is the field of every inequality clause; every rejection is a bad request |
| QueryFilters.RejectionIsFinal | conference.py:332-351 | clauses are checked in order, so a rejected prefix rejects the whole request with the same error |
| QueryFilters.TwoInequalityFieldsRejected | conference.py:341-349 | two inequality clauses on different fields, with every clause up to the later one known, are rejected with "Inequality filter is allowed on only one field" whatever follows |
| QueryFilters.UnknownNameRejected | conference.py:335-339 | an unknown field or operator name, with no inequality conflict before it, is rejected with "invalid field or operator" whatever follows |
| QueryFilters.CoerceAll | conference.py:319-321 | values of month and maxAttendees filters become the integers `int()` reads from them, other values stay text or `None`; the first numeric value that is unreadable or missing fails the whole query with that value's error |
| QueryFilters.GetQuery | conference.py:307-324 | succeeds exactly when the filters are valid and every numeric value is an integer; invalid filters are a bad request; with valid filters, the first month or maxAttendees value that is not an integer fails with `int()`'s ValueError, or its TypeError when the value is missing; keeps field, operator and order of the clauses, numeric values as integers and text values as text or `None`; orders by [inequality field, name] when some clause is an inequality and by [name] otherwise |
| QueryFilters.GetQueryStoreAccepts | conference.py:312-317 | every built query satisfies the store's rule that each inequality filter is on the first sort key, and name is always the last sort key |
| QueryFilters.EmptyQuery | conference.py:307-352 | no clauses give no inequality field and no filters: all conferences ordered by name |
| QuerySemantics.Execute | conference.py:319-323 | the store returns exactly the conferences that match every filter, a repeated `topics` property matching through any element |
| QuerySemantics.ClauseMeaning | conference.py:319-322 | the filter built from a clause matches exactly the conferences the clause asks for, read directly from the client's field and operator names |
| QuerySemantics.QueryMeaning | conference.py:307-324 | a built query matches a conference exactly when every clause of the request holds of it |
| QuerySemantics.ExecuteMeaning | conference.py:307-324 | running a built query selects exactly the conferences satisfying the AND of all clauses, in store order |
| QuerySemantics.MissingValues | conference.py:319-323 | a MONTH clause without a value fails with the `int(None)` error; a CITY clause without a value filters against `None`, which no present city equals and every present city exceeds |
| QuerySemantics.ParisAfterMarch | conference.py:307-352 | [CITY = Paris, MONTH > 3] filters on city = "Paris" and month > 3 and orders by month, then name |
| Decimal.NatToString | conference.py:321 | the decimal digits of n read back as n |
| Decimal.ParseIntToString | conference.py:321 | `int(str(n)) == n` for every integer n |
| Decimal.ParseIntIgnoresSpace | conference.py:321 | whitespace before or after a value never changes what `int()` reads |
| Decimal.SpaceAfterSign | conference.py:321 | `int()` reads "- 5" as -5 and " +\t12 " as 12: whitespace may follow the sign |
| Decimal.ParseInt | conference.py:321 | `int(s)` on ASCII text: a plain run of digits reads as its decimal value, a sign followed by digits reads as the signed value, and a value with no decimal digit, or with any character other than digits, whitespace and signs, is the ValueError |
| Conferences.CreateConference | conference.py:172-197 | a missing or empty name is a bad request; otherwise the organizer is the caller, missing city, topics and maxAttendees take their defaults, month is the start date's month or 0, and seatsAvailable equals maxAttendees when that is positive |
| Conferences.UpdateConference | conference.py:218-252 | a missing conference is not found and a caller other than the organizer is forbidden; otherwise each field the form carries is overwritten, every other field keeps its stored value; a supplied start date also sets month, and a supplied month without a start date replaces the stored month |
| Conferences.EmptyUpdateChangesNothing | conference.py:242-252 | an update that carries no field leaves the conference unchanged |
| Conferences.UpdateIdempotent | conference.py:242-252 | applying the same update twice has the effect of applying it once |
| Conferences.UpdateKeepsMonthConsistent | conference.py:247-250 | an update that does not set month directly keeps month equal to the start date's month |
| Conferences.Announcement | conference.py:808-828 | the announcement is "Last chance to attend!" when some conference has between 1 and 5 seats left, and empty when none has |
| Registration.ConferenceRegistration | conference.py:716-762 | a missing conference is not found. Registering conflicts when the caller is already registered or no seat is left, and succeeds exactly when neither holds; then it appends the key, takes exactly one seat and answers true. Unregistering a registered caller removes the key, returns one seat and answers true; otherwise it changes nothing and answers false |
| Registration.RegisterThenUnregister | conference.py:731-757 | registering then unregistering restores the caller's list and the seat count exactly |
| Registration.TransitionConservesSeats | conference.py:742-755 | seats left plus the caller's registrations for the conference are unchanged by every transition; no other conference and no other field changes |
| Registration.TransitionKeepsNoDuplicates | conference.py:731-757 | a list without duplicates stays so, and after unregistering the conference is no longer in it |
| Registration.NewUsersTakeOneSeatEach | conference.py:742-745 | n registrations by new users on a conference with at least n seats all succeed and take exactly n seats |
| Registration.TenSeatsFiveRegistrations | conference.py:196-197 | a conference created for 10 attendees has 10 seats, 5 after five registrations, and is then announced as almost sold out |
| Lists.RemoveFirst | conference.py:753 | `list.remove` drops one occurrence: one shorter with the same elements minus one copy of the key, and unchanged when the key is absent |
| Lists.RemoveFirstAt | conference.py:627-630 | removal cuts the list at the first index holding the key |
| Lists.RemoveFirstNoDuplicates | conference.py:750-753 | in a list without duplicates, removal removes the key entirely and keeps the list duplicate-free |
| Wishlist.DeleteSessionInWishlist | conference.py:623-634 | answers true exactly when the key is on the wishlist, in which case exactly its first occurrence is removed; otherwise the wishlist is unchanged and the answer is false, not an error |
| Wishlist.AddSessionToWishlistAsWritten | conference.py:575-603 | as written: a missing session is not found, and any existing session is appended, even when it is already on the wishlist |
| Wishlist.AddTwiceAsWrittenDuplicates | conference.py:594-600 | as written, adding the same session twice succeeds twice and leaves a duplicate |
| Wishlist.AddSessionToWishlist | conference.py:575-603 | corrected: a missing session is not found, a session already on the wishlist is a bad request, otherwise it is appended; a duplicate-free wishlist stays duplicate-free |
| Wishlist.AddTwiceRefused | conference.py:594-597 | corrected: the first add of a session succeeds, the second is refused |
| Wishlist.AddThenDelete | conference.py:599-630 | adding a session and then removing it gives back the wishlist |
| Sessions.SessionsByTypeAndStartTimeAsWritten | conference.py:473-486 | as written: keeps the sessions whose type differs from the requested one (with no requested type, those that have a type) and whose start time is present, not midnight, and earlier than the cut-off, each as often as in the input |
| Sessions.OmittedTypeKeepsTypedSessions | conference.py:477 | when the request gives no type, both scans keep a typed session and drop an untyped one |
| Sessions.MidnightSessionDroppedAsWritten | conference.py:483 | a session of another type starting at 00:00 is dropped for cut-off 01:00 as written, and kept by the corrected scan |
| Sessions.AsWrittenDiffersOnlyAtMidnight | conference.py:483 | the written and corrected scans agree on every session not starting at midnight |
| Sessions.SessionsByTypeAndStartTime | conference.py:473-486 | corrected: keeps exactly the sessions whose type differs from the requested one (with no requested type, those that have a type) and whose start time is present and strictly earlier, each as often as in the input |
| Sessions.ByTypeAndStartTimeKeepsOrder | conference.py:481-484 | the scan keeps the store's order: it distributes over concatenation |
| Sessions.LaterCutoffKeepsMore | conference.py:483 | a later cut-off time never loses a session |
| Sessions.FeaturedSpeakerAsWritten | conference.py:535-554 | as written: the featured-speaker task is sent exactly when two sessions stored before the new one already have the speaker, and it names exactly the stored sessions by the speaker, one name per session |
| Sessions.SecondSessionNotFeaturedAsWritten | conference.py:536-557 | a speaker's second session in a conference triggers nothing as written, and triggers the corrected rule with both session names |
| Sessions.SpeakerCount | conference.py:536-540 | counting the new session with the stored ones adds exactly it, at the end |
| Sessions.FeaturedSpeakerFor | conference.py:535-554 | corrected: the task is sent exactly when the speaker already has a session in the conference; it names exactly those sessions and the new one, one name per session, the new one last |
| Sessions.SpeakerInConference | conference.py:535-538 | the ancestor query finds a session by the speaker exactly when a stored session of this conference is theirs |
| Sessions.SpeakerSessionsOfConference | conference.py:535-538 | the ancestor query followed by the speaker filter selects, in store order, exactly the stored sessions of the conference by the speaker |
| Sessions.CreateSessionAsWritten | conference.py:489-559 | as written: a missing or empty name is a bad request, then a missing conference is not found, then a caller other than the organizer is forbidden; otherwise the form's session is stored, and the featured-speaker task is sent exactly when two stored sessions of the conference already have the same speaker, naming exactly those stored sessions, one name per session |
| Sessions.FeaturedInConference | conference.py:535-554 | corrected, over every stored session: the task is sent exactly when a stored session of the conference has the speaker, and names those sessions and the new one, one name per session |
| Sessions.CreateSession | conference.py:489-559 | corrected: the same errors and stored session as createSession, with the featured-speaker task sent exactly when a stored session of the conference has the same speaker, naming those sessions and the new one, one name per session |

## Findings

| source | as written | input that shows it | evidently intended | confidence | as-written member | corrected member |
|---|---|---|---|---|---|---|
| conference.py:594-600 | the duplicate guard `session.key in prof.sessionKeysWishlist` compares a datastore key object with the stored websafe strings, so it is never true | add session S to a wishlist that already holds S's websafe key: the call succeeds and S is stored twice | refuse the second add with a bad request | not executed; high | Wishlist.AddSessionToWishlistAsWritten (shown by Wishlist.AddTwiceAsWrittenDuplicates) | Wishlist.AddSessionToWishlist |
| conference.py:483 | `session.startTime and session.startTime < requestTime` treats a midnight start as false, because a `datetime.time` at 00:00 is false in Python 2 | a "Talk" session starting 00:00, request type "Workshop", time "01:00": the session is not returned | keep every session whose start time is present and earlier | not executed; medium (assumes the Python 2.7 runtime these APIs run on) | Sessions.SessionsByTypeAndStartTimeAsWritten (shown by Sessions.MidnightSessionDroppedAsWritten) | Sessions.SessionsByTypeAndStartTime |
| conference.py:536-557 | the speaker's sessions are counted before the new session is stored, and the test is `count() > 1` | a conference holding one session by Ada; create a second session by Ada: no featured-speaker task | feature the speaker once the new session gives them more than one, and include the new session's name | not executed; medium | Sessions.FeaturedSpeakerAsWritten and Sessions.CreateSessionAsWritten (shown by Sessions.SecondSessionNotFeaturedAsWritten) | Sessions.FeaturedSpeakerFor and Sessions.CreateSession |

`Sessions.CreateSessionAsWritten` models createSession as written; `Sessions.CreateSession` is the same operation with the corrected trigger.

## Left out

- Authentication: `endpoints.get_current_user` belongs to an external identity provider, so no operation models the Unauthorized error; the caller's user id is a parameter.
- Profiles: lazy profile creation (`_getProfileFromUser`) and `saveProfile` are outside this model. Registration and wishlist operations take the caller's lists as given.
- Datastore mechanics: key allocation, `urlsafe()` decoding, and the bad request for an undecodable websafe key in `createSession` are left out. So are multi-gets and transactions. Registration is one atomic function from state to result.
- Memcache, the task queue, pickling and the confirmation email: the announcement is returned rather than cached, and the featured-speaker task is returned as a value.
- Plain lookups with no logic of their own are left out: getConference, getConferencesCreated, getConferencesToAttend, getSessionsInWishlist, and the session queries by conference, type, speaker, name and highlights.
- The `_copy*ToForm` field copying, and the request echoed back by createConference, are framework glue.
- The duplicate `Conference(**data).put()` in createConference has no effect on the stored record.
- Session `highlights` and `duration` are copied through unread and are not part of the session record.
- Date and time parsing with `strptime`: an empty-string start date in a creation request cannot be represented.
- Decimal.ParseInt: Unicode digits and whitespace accepted by Python 2's `int()` on unicode strings are not modelled, nor is the store's 64-bit integer range.
- QueryFilters.FormatFilters: when one request has both an unknown name and a second inequality field, the contract says only that it is a bad request. The lemmas UnknownNameRejected and TwoInequalityFieldsRejected pin down which message comes first.
- QuerySemantics.Execute: returns the matches in the store's order without sorting by the query's order keys, which is the store's work. It treats each filter on the repeated `topics` property independently, although the store requires one element to meet all inequality filters on that property.
- Conferences.UpdateConference: when a form carries both `startDate` and `month`, the source's result depends on the iteration order of the form's fields. The model lets the start date's month win. The non-persisted attributes an update also sets (`websafeKey`, `organizerDisplayName`, `websafeConferenceKey`) are not modelled.
- Sessions.SessionsByTypeAndStartTime: the store evaluates the type condition and fixes the result order. The model scans the sessions in the order given and reads the store's `typeOfSession != x` as it answers it: a session with no type differs from every given type, and when the request gives no type only the sessions that have one are kept.

=== FILE: conferences.dfy ===
/** Conference records: the defaults and derived fields filled in on creation,
    the partial update that copies only the fields a request carries, and the
    "almost sold out" announcement rule. */
module Conferences {
  import opened Wrappers
  import opened Errors
  import Lists

  /** A websafe entity key. The model never looks inside one. */
  type Token = string

  /** The stable identifier of an authenticated user. */
  type UserId = string

  type MonthNumber = m: int | 1 <= m <= 12 witness 1

  /** A calendar date, as `strptime(..., "%Y-%m-%d").date()` produces it. */
  datatype Date = Date(year: int, month: MonthNumber, day: int)

  /** A stored Conference entity. */
  datatype Conference = Conference(
    name: string,
    description: Option<string>,
    organizerUserId: UserId,
    topics: seq<string>,
    city: string,
    startDate: Option<Date>,
    month: int,
    maxAttendees: int,
    seatsAvailable: int,
    endDate: Option<Date>)

  /** The fields of a ConferenceForm request that can reach the stored entity.
      `None`, and the empty list for the repeated `topics`, mean that the
      client left the field out. */
  datatype ConferenceForm = ConferenceForm(
    name: Option<string>,
    description: Option<string>,
    organizerUserId: Option<UserId>,
    topics: seq<string>,
    city: Option<string>,
    startDate: Option<Date>,
    month: Option<int>,
    maxAttendees: Option<int>,
    seatsAvailable: Option<int>,
    endDate: Option<Date>)

  /** A form that carries no field at all. */
  const EmptyForm := ConferenceForm(None, None, None, [], None, None, None, None, None, None)

  // The DEFAULTS table applied to fields a new conference leaves out.
  const DefaultCity := "Default City"
  const DefaultMaxAttendees := 0
  const DefaultSeatsAvailable := 0
  const DefaultTopics := ["Default", "Topic"]

  /** The month a conference is filed under: that of its start date, or 0
      when it has none. */
  function MonthOf(startDate: Option<Date>): int {
    match startDate
    case Some(d) => d.month
    case None => 0
  }

  /** The stored `month` agrees with the stored start date. */
  predicate MonthConsistent(c: Conference) {
    c.month == MonthOf(c.startDate)
  }

  /** Python's truth test on the request's name: `None` and "" are false. */
  predicate HasName(name: Option<string>) {
    name.Some? && name.value != ""
  }

  /** The entity `createConference` stores for `user`. */
  function CreateConference(form: ConferenceForm, user: UserId): (r: Result<Conference, Error>)
    ensures r.Failure? <==> !HasName(form.name)
    ensures r.Failure? ==> r.error == BadRequest(NameRequired)
    ensures r.Success? ==>
      && r.value.name == form.name.value
      && r.value.organizerUserId == user
      && r.value.description == form.description
      && r.value.startDate == form.startDate
      && r.value.endDate == form.endDate
    ensures r.Success? ==> r.value.city == if form.city.Some? then form.city.value else DefaultCity
    ensures r.Success? ==> r.value.topics == if form.topics == [] then DefaultTopics else form.topics
    ensures r.Success? ==> r.value.maxAttendees == if form.maxAttendees.Some? then form.maxAttendees.value else 0
    ensures r.Success? ==> MonthConsistent(r.value)
    ensures r.Success? && r.value.maxAttendees > 0 ==> r.value.seatsAvailable == r.value.maxAttendees
    ensures r.Success? && r.value.maxAttendees <= 0 ==>
      r.value.seatsAvailable == if form.seatsAvailable.Some? then form.seatsAvailable.value else 0
  {
    if !HasName(form.name) then Failure(BadRequest(NameRequired))
    else
      var maxAttendees := form.maxAttendees.GetOr(DefaultMaxAttendees);
      Success(Conference(
        name := form.name.value,
        description := form.description,
        organizerUserId := user,
        topics := if form.topics == [] then DefaultTopics else form.topics,
        city := form.city.GetOr(DefaultCity),
        startDate := form.startDate,
        month := MonthOf(form.startDate),
        maxAttendees := maxAttendees,
        seatsAvailable :=
          if maxAttendees > 0 then maxAttendees
          else form.seatsAvailable.GetOr(DefaultSeatsAvailable),
        endDate := form.endDate))
  }

  /** Copy onto `c` every field the form carries, leaving the others alone.
      A supplied start date also refiles the conference under its month. */
  function ApplyForm(c: Conference, f: ConferenceForm): Conference {
    Conference(
      name := f.name.GetOr(c.name),
      description := if f.description.Some? then f.description else c.description,
      organizerUserId := f.organizerUserId.GetOr(c.organizerUserId),
      topics := if f.topics == [] then c.topics else f.topics,
      city := f.city.GetOr(c.city),
      startDate := if f.startDate.Some? then f.startDate else c.startDate,
      month :=
        if f.startDate.Some? then f.startDate.value.month
        else f.month.GetOr(c.month),
      maxAttendees := f.maxAttendees.GetOr(c.maxAttendees),
      seatsAvailable := f.seatsAvailable.GetOr(c.seatsAvailable),
      endDate := if f.endDate.Some? then f.endDate else c.endDate)
  }

  /** `updateConference` on the entity stored under the requested key
      (`None` when there is none), called by `user`. */
  function UpdateConference(stored: Option<Conference>, user: UserId, f: ConferenceForm)
    : (r: Result<Conference, Error>)
    ensures stored.None? ==> r == Failure(NotFound)
    ensures stored.Some? && stored.value.organizerUserId != user ==> r == Failure(Forbidden)
    ensures r.Success? <==> stored.Some? && stored.value.organizerUserId == user
    ensures r.Success? ==> var c, u := stored.value, r.value;
      && (f.name.None? ==> u.name == c.name)
      && (f.name.Some? ==> u.name == f.name.value)
      && (f.description.None? ==> u.description == c.description)
      && (f.description.Some? ==> u.description == f.description)
      && (f.organizerUserId.None? ==> u.organizerUserId == c.organizerUserId)
      && (f.organizerUserId.Some? ==> u.organizerUserId == f.organizerUserId.value)
      && (f.topics == [] ==> u.topics == c.topics)
      && (f.topics != [] ==> u.topics == f.topics)
      && (f.city.None? ==> u.city == c.city)
      && (f.city.Some? ==> u.city == f.city.value)
      && (f.startDate.None? ==> u.startDate == c.startDate)
      && (f.startDate.Some? ==> u.startDate == f.startDate && u.month == f.startDate.value.month)
      && (f.startDate.None? && f.month.None? ==> u.month == c.month)
      && (f.startDate.None? && f.month.Some? ==> u.month == f.month.value)
      && (f.maxAttendees.None? ==> u.maxAttendees == c.maxAttendees)
      && (f.maxAttendees.Some? ==> u.maxAttendees == f.maxAttendees.value)
      && (f.seatsAvailable.None? ==> u.seatsAvailable == c.seatsAvailable)
      && (f.seatsAvailable.Some? ==> u.seatsAvailable == f.seatsAvailable.value)
      && (f.endDate.None? ==> u.endDate == c.endDate)
      && (f.endDate.Some? ==> u.endDate == f.endDate)
  {
    match stored
    case None => Failure(NotFound)
    case Some(c) =>
      if user != c.organizerUserId then Failure(Forbidden)
      else Success(ApplyForm(c, f))
  }

  /** A form without fields leaves the conference exactly as it was. */
  lemma EmptyUpdateChangesNothing(c: Conference)
    ensures ApplyForm(c, EmptyForm) == c
  {
  }

  /** Sending the same update twice has the effect of sending it once. */
  lemma UpdateIdempotent(c: Conference, f: ConferenceForm)
    ensures ApplyForm(ApplyForm(c, f), f) == ApplyForm(c, f)
  {
  }

  /** An update that does not set `month` directly keeps the month in step
      with the start date. */
  lemma UpdateKeepsMonthConsistent(c: Conference, f: ConferenceForm)
    requires MonthConsistent(c) && f.month.None?
    ensures MonthConsistent(ApplyForm(c, f))
  {
  }

  /** A conference with between one and five seats left. */
  predicate AlmostSoldOut(c: Conference) {
    0 < c.seatsAvailable <= 5
  }

  const LastChanceAnnouncement := "Last chance to attend!"

  /** The announcement cached for the given conferences: the fixed
      "last chance" text when any of them is almost sold out, else empty. */
  function Announcement(conferences: seq<Conference>): (r: string)
    ensures (exists i :: 0 <= i < |conferences| && AlmostSoldOut(conferences[i])) ==>
      r == LastChanceAnnouncement
    ensures (forall i :: 0 <= i < |conferences| ==> !AlmostSoldOut(conferences[i])) ==> r == ""
  {
    var almostSoldOut := Lists.Select(conferences, AlmostSoldOut);
    if |almostSoldOut| > 0 then LastChanceAnnouncement
    else
      assert forall c :: c in conferences ==> !AlmostSoldOut(c);
      ""
  }
}

=== FILE: decimal.dfy ===
/** Python 2's `int(text)` on a decimal string, which the query builder uses to
    turn `month` and `maxAttendees` filter values into integers, together with
    its inverse `str(n)`. */
module Decimal {
  import opened Wrappers

  predicate IsDigit(c: char) {
    '0' <= c <= '9'
  }

  /** ASCII whitespace as `str.isspace` sees it: space, tab, newline,
      vertical tab, form feed and carriage return. */
  predicate IsSpace(c: char) {
    c == ' ' || '\t' <= c <= '\r'
  }

  predicate IsSign(c: char) {
    c == '+' || c == '-'
  }

  /** A character `int()` never accepts: not a digit, whitespace or a sign
      (a point, an exponent, a hexadecimal prefix or a letter). */
  predicate Foreign(c: char) {
    !IsDigit(c) && !IsSpace(c) && !IsSign(c)
  }

  predicate AllDigits(s: string) {
    forall i :: 0 <= i < |s| ==> IsDigit(s[i])
  }

  function DigitValue(c: char): nat
    requires IsDigit(c)
  {
    c as int - '0' as int
  }

  function DigitChar(d: nat): (c: char)
    requires d < 10
    ensures IsDigit(c) && DigitValue(c) == d
  {
    ('0' as int + d) as char
  }

  /** The value of a run of decimal digits, most significant digit first. */
  function DigitsValue(ds: string): nat
    requires AllDigits(ds)
    decreases |ds|
  {
    if |ds| == 0 then 0
    else DigitsValue(ds[..|ds| - 1]) * 10 + DigitValue(ds[|ds| - 1])
  }

  function TrimStart(s: string): string {
    if |s| > 0 && IsSpace(s[0]) then TrimStart(s[1..]) else s
  }

  function TrimEnd(s: string): string {
    if |s| > 0 && IsSpace(s[|s| - 1]) then TrimEnd(s[..|s| - 1]) else s
  }

  /** `int(s)`: surrounding whitespace is ignored, then an optional sign,
      more whitespace after a sign (Python 2 reads the digits after the sign
      with `strtoul`, which skips it), and at least one decimal digit must
      make up the rest. `None` stands for the ValueError `int` raises on
      anything else. */
  function ParseInt(s: string): (r: Option<int>)
    ensures |s| > 0 && AllDigits(s) ==> r == Some(DigitsValue(s))
    ensures |s| > 1 && IsSign(s[0]) && AllDigits(s[1..]) ==>
      r == Some(if s[0] == '-' then -(DigitsValue(s[1..]) as int) else DigitsValue(s[1..]))
    ensures NoDigits(s) ==> r.None?
    ensures (exists i :: 0 <= i < |s| && Foreign(s[i])) ==> r.None?
  {
    DigitsTrimmed(s);
    SignedTrimmed(s);
    NoDigitsTrimmed(s);
    ForeignTrimmed(s);
    var t := TrimEnd(TrimStart(s));
    if |t| > 0 && (t[0] == '-' || t[0] == '+') then
      var ds := TrimStart(t[1..]);
      if |ds| > 0 && AllDigits(ds) then
        var magnitude: int := DigitsValue(ds);
        Some(if t[0] == '-' then -magnitude else magnitude)
      else None
    else if |t| > 0 && AllDigits(t) then Some(DigitsValue(t))
    else None
  }

  /** `str(n)` for a natural number: its shortest decimal digits. */
  function NatToString(n: nat): (r: string)
    ensures |r| > 0 && AllDigits(r) && DigitsValue(r) == n
  {
    if n < 10 then [DigitChar(n)]
    else
      var r := NatToString(n / 10) + [DigitChar(n % 10)];
      assert r[..|r| - 1] == NatToString(n / 10);
      r
  }

  /** `str(n)` for any integer: a minus sign before the digits of `-n` when negative. */
  function IntToString(n: int): (r: string)
    ensures |r| > 0
  {
    if n < 0 then "-" + NatToString(-n) else NatToString(n)
  }

  lemma TrimDigits(s: string)
    requires |s| > 0 && (IsDigit(s[0]) || IsSign(s[0])) && IsDigit(s[|s| - 1])
    ensures TrimEnd(TrimStart(s)) == s
  {
  }

  /** A sign followed by digits only is left alone by the trimming, and so
      are the digits after the sign. */
  lemma SignedTrimmed(s: string)
    ensures |s| > 1 && IsSign(s[0]) && AllDigits(s[1..]) ==>
      TrimEnd(TrimStart(s)) == s && TrimStart(s[1..]) == s[1..]
  {
    if |s| > 1 && IsSign(s[0]) && AllDigits(s[1..]) {
      assert s[1..][|s| - 2] == s[|s| - 1];
      TrimDigits(s);
      assert s[1..][0] == s[1];
    }
  }

  /** `int(str(n)) == n` for every integer. */
  lemma ParseIntToString(n: int)
    ensures ParseInt(IntToString(n)) == Some(n)
  {
    var r := IntToString(n);
    TrimDigits(r);
    if n < 0 {
      assert r[1..] == NatToString(-n);
    }
  }

  /** Leading and trailing whitespace never changes what `int` reads. */
  lemma {:induction false} ParseIntIgnoresSpace(s: string, c: char)
    requires IsSpace(c)
    ensures ParseInt([c] + s) == ParseInt(s)
    ensures ParseInt(s + [c]) == ParseInt(s)
  {
    assert ([c] + s)[1..] == s;
    TrimEndSpace(TrimStart(s), c);
    TrimStartAppend(s, c);
  }

  /** Python 2 accepts whitespace between the sign and the digits. */
  lemma SpaceAfterSign()
    ensures ParseInt("- 5") == Some(-5)
    ensures ParseInt(" +\t12 ") == Some(12)
  {
    assert TrimEnd(TrimStart("- 5")) == "- 5";
    assert TrimStart("- 5"[1..]) == "5";
    assert TrimEnd(TrimStart(" +\t12 ")) == "+\t12";
    assert TrimStart("+\t12"[1..]) == "12";
  }

  lemma {:induction false} TrimEndSpace(s: string, c: char)
    requires IsSpace(c)
    ensures TrimEnd(s + [c]) == TrimEnd(s)
  {
    assert (s + [c])[..|s|] == s;
  }

  lemma {:induction false} TrimStartAppend(s: string, c: char)
    requires IsSpace(c)
    ensures TrimEnd(TrimStart(s + [c])) == TrimEnd(TrimStart(s))
    decreases |s|
  {
    if |s| > 0 && IsSpace(s[0]) {
      assert (s + [c])[1..] == s[1..] + [c];
      TrimStartAppend(s[1..], c);
    } else if |s| > 0 {
      assert (s + [c])[0] == s[0];
      TrimEndSpace(s, c);
    } else {
      assert TrimStart([c]) == [];
    }
  }

  predicate NoDigits(s: string) {
    forall i :: 0 <= i < |s| ==> !IsDigit(s[i])
  }

  /** Trimming a plain run of digits leaves it as it is. */
  lemma DigitsTrimmed(s: string)
    ensures |s| > 0 && AllDigits(s) ==> TrimEnd(TrimStart(s)) == s
  {
    if |s| > 0 && AllDigits(s) {
      TrimDigits(s);
    }
  }

  /** Trimming, and dropping a sign, never brings a digit into a string
      without one. */
  lemma NoDigitsTrimmed(s: string)
    ensures NoDigits(s) ==>
      var t := TrimEnd(TrimStart(s));
      NoDigits(t) && (|t| > 0 ==> NoDigits(TrimStart(t[1..])))
  {
    if NoDigits(s) {
      NoDigitsTrimStart(s);
      NoDigitsTrimEnd(TrimStart(s));
      var t := TrimEnd(TrimStart(s));
      if |t| > 0 {
        assert forall i :: 0 <= i < |t[1..]| ==> t[1..][i] == t[i + 1];
        NoDigitsTrimStart(t[1..]);
      }
    }
  }

  lemma {:induction false} NoDigitsTrimStart(s: string)
    requires NoDigits(s)
    ensures NoDigits(TrimStart(s))
    decreases |s|
  {
    if |s| > 0 && IsSpace(s[0]) {
      assert forall i :: 0 <= i < |s[1..]| ==> s[1..][i] == s[i + 1];
      NoDigitsTrimStart(s[1..]);
    }
  }

  lemma {:induction false} NoDigitsTrimEnd(s: string)
    requires NoDigits(s)
    ensures NoDigits(TrimEnd(s))
    decreases |s|
  {
    if |s| > 0 && IsSpace(s[|s| - 1]) {
      assert forall i :: 0 <= i < |s| - 1 ==> s[..|s| - 1][i] == s[i];
      NoDigitsTrimEnd(s[..|s| - 1]);
    }
  }

  /** Trimming, and dropping a sign, never removes a foreign character. */
  lemma ForeignTrimmed(s: string)
    ensures (exists i :: 0 <= i < |s| && Foreign(s[i])) ==>
      var t := TrimEnd(TrimStart(s));
      && (exists i :: 0 <= i < |t| && Foreign(t[i]))
      && (|t| > 0 && IsSign(t[0]) ==> exists i :: 0 <= i < |TrimStart(t[1..])| && Foreign(TrimStart(t[1..])[i]))
  {
    if exists i :: 0 <= i < |s| && Foreign(s[i]) {
      ForeignTrimStart(s);
      ForeignTrimEnd(TrimStart(s));
      var t := TrimEnd(TrimStart(s));
      if |t| > 0 && IsSign(t[0]) {
        var k :| 0 <= k < |t| && Foreign(t[k]);
        assert k > 0;
        assert t[1..][k - 1] == t[k];
        ForeignTrimStart(t[1..]);
      }
    }
  }

  lemma {:induction false} ForeignTrimStart(s: string)
    requires exists i :: 0 <= i < |s| && Foreign(s[i])
    ensures exists i :: 0 <= i < |TrimStart(s)| && Foreign(TrimStart(s)[i])
    decreases |s|
  {
    var k :| 0 <= k < |s| && Foreign(s[k]);
    if |s| > 0 && IsSpace(s[0]) {
      assert k > 0;
      assert s[1..][k - 1] == s[k];
      ForeignTrimStart(s[1..]);
      assert TrimStart(s) == TrimStart(s[1..]);
    } else {
      assert TrimStart(s)[k] == s[k];
    }
  }

  lemma {:induction false} ForeignTrimEnd(s: string)
    requires exists i :: 0 <= i < |s| && Foreign(s[i])
    ensures exists i :: 0 <= i < |TrimEnd(s)| && Foreign(TrimEnd(s)[i])
    decreases |s|
  {
    var k :| 0 <= k < |s| && Foreign(s[k]);
    if |s| > 0 && IsSpace(s[|s| - 1]) {
      assert k < |s| - 1;
      assert s[..|s| - 1][k] == s[k];
      ForeignTrimEnd(s[..|s| - 1]);
      assert TrimEnd(s) == TrimEnd(s[..|s| - 1]);
    } else {
      assert TrimEnd(s)[k] == s[k];
    }
  }
}

=== FILE: errors.dfy ===
/** The exceptions the endpoints raise, grouped by the HTTP status they map to.
    Each reason names the message the source attaches to the exception. */
module Errors {

  /** Reasons for a 400 Bad Request. */
  datatype BadRequestReason =
    | InvalidFieldOrOperator     // "Filter contains invalid field or operator."
    | InequalityOnSeveralFields  // "Inequality filter is allowed on only one field."
    | NameRequired               // "'name' field required" / "Field 'name' is mandatory"
    | AlreadyInWishlist          // "Session already saved to wishlist"

  /** Reasons for a 409 Conflict. */
  datatype ConflictReason =
    | AlreadyRegistered          // "You have already registered for this conference"
    | NoSeatsAvailable           // "There are no seats available."

  datatype Error =
    | BadRequest(badRequest: BadRequestReason)
    | NotFound
    | Forbidden
    | Conflict(conflict: ConflictReason)
      /** Python's ValueError from `int(value)`: not caught by the endpoint,
          so it surfaces as a server error rather than a 400. */
    | NotAnInteger
      /** Python's TypeError from `int(None)`, when a month or maxAttendees
          filter carries no value: not caught either. */
    | MissingInteger
}

=== FILE: lists.dfy ===
/** The Python list operations the endpoints rely on: `list.remove`, the
    membership test `x in list`, and the filtering loops that build a new list
    from the elements that pass a test. */
module Lists {

  /** The list with its first occurrence of `x` removed, which is what
      Python's `list.remove(x)` leaves behind when `x` is present. When `x` is
      absent the list comes back unchanged (every caller tests membership
      before calling `remove`, so the ValueError is never raised). */
  function RemoveFirst<T(==)>(s: seq<T>, x: T): (r: seq<T>)
    ensures x !in s ==> r == s
    ensures x in s ==> |r| == |s| - 1
    ensures multiset(r) == multiset(s) - multiset{x}
  {
    if |s| == 0 then []
    else if s[0] == x then
      assert s == [s[0]] + s[1..];
      s[1..]
    else
      assert s == [s[0]] + s[1..];
      [s[0]] + RemoveFirst(s[1..], x)
  }

  /** Removing the first occurrence cuts the list at the first index holding `x`. */
  lemma {:induction false} RemoveFirstAt<T>(s: seq<T>, x: T, i: int)
    requires 0 <= i < |s| && s[i] == x && x !in s[..i]
    ensures RemoveFirst(s, x) == s[..i] + s[i + 1..]
  {
    if i > 0 {
      AbsentFromTail(s, x, i);
      RemoveFirstAt(s[1..], x, i - 1);
      ConsSplit(s, i);
    }
  }

  lemma AbsentFromTail<T>(s: seq<T>, x: T, i: int)
    requires 0 < i <= |s| && x !in s[..i]
    ensures s[0] != x && x !in s[1..][..i - 1]
  {
    assert s[0] == s[..i][0];
    assert s[1..][..i - 1] == s[..i][1..];
  }

  lemma ConsSplit<T>(s: seq<T>, i: int)
    requires 0 < i < |s|
    ensures [s[0]] + (s[1..][..i - 1] + s[1..][i..]) == s[..i] + s[i + 1..]
  {
    assert s[..i] == [s[0]] + s[1..][..i - 1];
    assert s[i + 1..] == s[1..][i..];
  }

  /** Appending an absent element and then removing it gives back the list. */
  lemma {:induction false} RemoveAppended<T>(s: seq<T>, x: T)
    requires x !in s
    ensures RemoveFirst(s + [x], x) == s
  {
    assert (s + [x])[..|s|] == s;
    RemoveFirstAt(s + [x], x, |s|);
    assert (s + [x])[|s| + 1..] == [];
  }

  /** No element occurs twice. */
  predicate NoDuplicates<T(==)>(s: seq<T>) {
    forall i, j :: 0 <= i < j < |s| ==> s[i] != s[j]
  }

  /** In a list without duplicates, removing `x` removes it entirely and keeps
      the list free of duplicates. */
  lemma {:induction false} RemoveFirstNoDuplicates<T>(s: seq<T>, x: T)
    requires NoDuplicates(s)
    ensures NoDuplicates(RemoveFirst(s, x))
    ensures x !in RemoveFirst(s, x)
  {
    if |s| > 0 {
      var t := s[1..];
      assert NoDuplicates(t) by {
        forall i, j | 0 <= i < j < |t|
          ensures t[i] != t[j]
        {
          assert t[i] == s[i + 1] && t[j] == s[j + 1];
        }
      }
      assert s[0] !in t by {
        forall k | 0 <= k < |t|
          ensures t[k] != s[0]
        {
          assert t[k] == s[k + 1];
        }
      }
      if s[0] != x {
        RemoveFirstNoDuplicates(t, x);
        var rest := RemoveFirst(t, x);
        assert multiset(rest)[s[0]] == 0;
        assert s[0] !in rest;
        ConsNoDuplicates(s[0], rest);
      }
    }
  }

  /** Putting an absent element in front keeps a list free of duplicates. */
  lemma ConsNoDuplicates<T>(a: T, t: seq<T>)
    requires NoDuplicates(t) && a !in t
    ensures NoDuplicates([a] + t)
  {
    var s := [a] + t;
    forall i, j | 0 <= i < j < |s|
      ensures s[i] != s[j]
    {
      assert s[j] == t[j - 1];
      if i > 0 {
        assert s[i] == t[i - 1];
      }
    }
  }

  /** The elements of `s` that pass `keep`, in their original order: the
      shape of every `for x in xs: if test(x): out.append(x)` loop. */
  function Select<T(!new)>(s: seq<T>, keep: T -> bool): (r: seq<T>)
    ensures |r| <= |s|
    ensures forall x :: multiset(r)[x] == if keep(x) then multiset(s)[x] else 0
    ensures forall x :: x in r <==> x in s && keep(x)
  {
    if |s| == 0 then []
    else
      assert s == [s[0]] + s[1..];
      var rest := Select(s[1..], keep);
      if keep(s[0]) then [s[0]] + rest else rest
  }

  /** Selection commutes with concatenation, so it keeps the input order. */
  lemma {:induction false} SelectAppend<T(!new)>(a: seq<T>, b: seq<T>, keep: T -> bool)
    ensures Select(a + b, keep) == Select(a, keep) + Select(b, keep)
  {
    if |a| > 0 {
      assert (a + b)[1..] == a[1..] + b;
      SelectAppend(a[1..], b, keep);
    } else {
      assert a + b == b;
    }
  }

  /** Selecting from two elements keeps each one that passes, in order. */
  lemma SelectPair<T(!new)>(x: T, y: T, keep: T -> bool)
    ensures Select([x, y], keep) == (if keep(x) then [x] else []) + (if keep(y) then [y] else [])
  {
    assert [x, y][1..] == [y];
    assert [y][1..] == [];
  }

  /** Selecting with two tests that agree on every element gives the same list. */
  lemma {:induction false} SelectSameTest<T(!new)>(s: seq<T>, p: T -> bool, q: T -> bool)
    requires forall x :: x in s ==> p(x) == q(x)
    ensures Select(s, p) == Select(s, q)
  {
    if |s| > 0 {
      assert forall x :: x in s[1..] ==> x in s;
      SelectSameTest(s[1..], p, q);
    }
  }

  /** Selecting twice is selecting once by both tests. */
  lemma {:induction false} SelectSelect<T(!new)>(s: seq<T>, p: T -> bool, q: T -> bool, both: T -> bool)
    requires forall x :: both(x) == (p(x) && q(x))
    ensures Select(Select(s, p), q) == Select(s, both)
  {
    if |s| > 0 {
      SelectSelect(s[1..], p, q, both);
      var rest := Select(s[1..], p);
      if p(s[0]) {
        assert ([s[0]] + rest)[1..] == rest;
      }
    }
  }

  /** At least two elements pass the test exactly when two distinct
      positions hold elements that pass it. */
  lemma {:induction false} SelectAtLeastTwo<T(!new)>(s: seq<T>, keep: T -> bool)
    ensures |Select(s, keep)| >= 2 <==> exists i, j :: 0 <= i < j < |s| && keep(s[i]) && keep(s[j])
  {
    if |s| > 0 {
      var rest := Select(s[1..], keep);
      if keep(s[0]) {
        if |rest| >= 1 {
          assert rest[0] in rest;
          assert rest[0] in s[1..];
          var k :| 0 <= k < |s[1..]| && s[1..][k] == rest[0];
          assert keep(s[0]) && keep(s[k + 1]);
        }
        if exists i, j :: 0 <= i < j < |s| && keep(s[i]) && keep(s[j]) {
          var i, j :| 0 <= i < j < |s| && keep(s[i]) && keep(s[j]);
          assert s[j] == s[1..][j - 1];
          assert s[j] in rest;
        }
      } else {
        SelectAtLeastTwo(s[1..], keep);
        if exists i, j :: 0 <= i < j < |s| && keep(s[i]) && keep(s[j]) {
          var i, j :| 0 <= i < j < |s| && keep(s[i]) && keep(s[j]);
          assert s[1..][i - 1] == s[i] && s[1..][j - 1] == s[j];
        }
        if exists i, j :: 0 <= i < j < |s[1..]| && keep(s[1..][i]) && keep(s[1..][j]) {
          var i, j :| 0 <= i < j < |s[1..]| && keep(s[1..][i]) && keep(s[1..][j]);
          assert s[i + 1] == s[1..][i] && s[j + 1] == s[1..][j];
        }
      }
    }
  }
}

=== FILE: query_filters.dfy ===
/** The query builder behind `queryConferences`: user filter clauses are
    translated through the FIELDS and OPERATORS tables, checked against the
    store's one-inequality-field rule, given a sort order and have their
    numeric values converted to integers. */
module QueryFilters {
  import opened Wrappers
  import opened Errors
  import Decimal

  /** The conference properties a query may filter on. */
  datatype Field = City | Topics | Month | MaxAttendees

  /** The comparison operators a query may use. */
  datatype Op = Eq | Gt | GtEq | Lt | LtEq | Ne

  /** The FIELDS table: request-side field names to properties. */
  function FieldNamed(name: string): Option<Field> {
    if name == "CITY" then Some(City)
    else if name == "TOPIC" then Some(Topics)
    else if name == "MONTH" then Some(Month)
    else if name == "MAX_ATTENDEES" then Some(MaxAttendees)
    else None
  }

  /** The OPERATORS table: request-side operator names to operators. */
  function OperatorNamed(name: string): Option<Op> {
    if name == "EQ" then Some(Eq)
    else if name == "GT" then Some(Gt)
    else if name == "GTEQ" then Some(GtEq)
    else if name == "LT" then Some(Lt)
    else if name == "LTEQ" then Some(LtEq)
    else if name == "NE" then Some(Ne)
    else None
  }

  /** The property name each field is stored under. */
  function PropertyName(f: Field): string {
    match f
    case City => "city"
    case Topics => "topics"
    case Month => "month"
    case MaxAttendees => "maxAttendees"
  }

  /** The datastore operator each operator is written as. */
  function OperatorSymbol(op: Op): string {
    match op
    case Eq => "="
    case Gt => ">"
    case GtEq => ">="
    case Lt => "<"
    case LtEq => "<="
    case Ne => "!="
  }

  /** Distinct client names give distinct fields and operators, distinct
      fields are stored under distinct properties, and distinct operators are
      written differently, so the translation loses nothing. */
  lemma TablesInjective(f: Field, g: Field, p: Op, q: Op, a: string, b: string)
    ensures FieldNamed(a).Some? && FieldNamed(a) == FieldNamed(b) ==> a == b
    ensures OperatorNamed(a).Some? && OperatorNamed(a) == OperatorNamed(b) ==> a == b
    ensures PropertyName(f) == PropertyName(g) ==> f == g
    ensures OperatorSymbol(p) == OperatorSymbol(q) ==> p == q
  {
  }

  /** A filter clause exactly as the client sent it; a clause sent without
      a value carries `None`, as the form's unset field reads. */
  datatype Clause = Clause(field: string, operator: string, value: Option<string>)

  /** A clause after translation through the tables. */
  datatype Filter = Filter(field: Field, op: Op, value: Option<string>)

  /** Both names of the clause appear in their tables. */
  predicate Known(c: Clause) {
    FieldNamed(c.field).Some? && OperatorNamed(c.operator).Some?
  }

  predicate AllKnown(cs: seq<Clause>) {
    forall i :: 0 <= i < |cs| ==> Known(cs[i])
  }

  function Translate(c: Clause): Filter
    requires Known(c)
  {
    Filter(FieldNamed(c.field).value, OperatorNamed(c.operator).value, c.value)
  }

  /** The field a clause compares with something other than `=`, if any:
      every operator except EQ is an inequality for the store. */
  function InequalityField(c: Clause): Option<Field> {
    if Known(c) && OperatorNamed(c.operator) != Some(Eq) then FieldNamed(c.field) else None
  }

  /** No two clauses put an inequality on different fields. */
  predicate SingleInequalityField(cs: seq<Clause>) {
    forall i, j ::
      0 <= i < |cs| && 0 <= j < |cs| &&
      InequalityField(cs[i]).Some? && InequalityField(cs[j]).Some?
      ==> InequalityField(cs[i]) == InequalityField(cs[j])
  }

  /** No clause is an inequality. */
  predicate AllEqualities(cs: seq<Clause>) {
    forall i :: 0 <= i < |cs| ==> InequalityField(cs[i]).None?
  }

  /** `_formatFilters`: the inequality field (if any) and the translated
      clauses, one per input clause and in input order. An unknown name, or a
      second field under an inequality, rejects the whole request. */
  function FormatFilters(cs: seq<Clause>): (r: Result<(Option<Field>, seq<Filter>), Error>)
    ensures r.Success? <==> AllKnown(cs) && SingleInequalityField(cs)
    ensures r.Failure? ==> r.error.BadRequest?
    ensures AllKnown(cs) && !SingleInequalityField(cs) ==>
      r == Failure(BadRequest(InequalityOnSeveralFields))
    ensures !AllKnown(cs) && SingleInequalityField(cs) ==>
      r == Failure(BadRequest(InvalidFieldOrOperator))
    ensures r.Success? ==>
      && |r.value.1| == |cs|
      && (forall i :: 0 <= i < |cs| ==> r.value.1[i] == Translate(cs[i]))
    ensures r.Success? ==> (r.value.0.None? <==> AllEqualities(cs))
    ensures r.Success? ==> forall i :: 0 <= i < |cs| && InequalityField(cs[i]).Some? ==>
      r.value.0 == InequalityField(cs[i])
    decreases |cs|
  {
    if |cs| == 0 then Success((None, []))
    else
      var prefix, last := cs[..|cs| - 1], cs[|cs| - 1];
      PrefixFacts(cs);
      match FormatFilters(prefix)
      case Failure(e) => Failure(e)
      case Success((inequality, filters)) =>
        if !Known(last) then
          Failure(BadRequest(InvalidFieldOrOperator))
        else
          var f, op := FieldNamed(last.field).value, OperatorNamed(last.operator).value;
          if op != Eq && inequality.Some? && inequality.value != f then
            ConflictWithPrefix(cs, inequality);
            Failure(BadRequest(InequalityOnSeveralFields))
          else
            ExtendAccepted(cs, inequality);
            var filters' := filters + [Filter(f, op, last.value)];
            assert forall i :: 0 <= i < |cs| - 1 ==> filters'[i] == Translate(cs[i]);
            Success((if op != Eq then Some(f) else inequality, filters'))
  }

  /** `inequality` is the one inequality field of the clauses, or `None`
      when every clause is an equality. */
  predicate InequalitySummary(cs: seq<Clause>, inequality: Option<Field>) {
    && (inequality.None? <==> AllEqualities(cs))
    && forall i :: 0 <= i < |cs| && InequalityField(cs[i]).Some? ==> inequality == InequalityField(cs[i])
  }

  /** What the clauses without the last one inherit from the whole request. */
  lemma PrefixFacts(cs: seq<Clause>)
    requires |cs| > 0
    ensures var prefix := cs[..|cs| - 1];
      && (forall i :: 0 <= i < |prefix| ==> prefix[i] == cs[i])
      && (AllKnown(cs) <==> AllKnown(prefix) && Known(cs[|cs| - 1]))
      && (SingleInequalityField(cs) ==> SingleInequalityField(prefix))
  {
    var prefix := cs[..|cs| - 1];
    assert forall i :: 0 <= i < |prefix| ==> prefix[i] == cs[i];
  }

  /** A last clause with an inequality on a field other than the earlier
      inequality field makes a conflict. */
  lemma ConflictWithPrefix(cs: seq<Clause>, inequality: Option<Field>)
    requires |cs| > 0 && Known(cs[|cs| - 1])
    requires InequalitySummary(cs[..|cs| - 1], inequality) && inequality.Some?
    requires OperatorNamed(cs[|cs| - 1].operator).value != Eq
    requires inequality.value != FieldNamed(cs[|cs| - 1].field).value
    ensures !SingleInequalityField(cs)
  {
    var prefix := cs[..|cs| - 1];
    var k :| 0 <= k < |prefix| && InequalityField(prefix[k]).Some?;
    assert prefix[k] == cs[k];
    assert InequalityField(cs[|cs| - 1]) == Some(FieldNamed(cs[|cs| - 1].field).value);
  }

  /** A known last clause that does not conflict keeps the request accepted
      and updates the inequality field. */
  lemma ExtendAccepted(cs: seq<Clause>, inequality: Option<Field>)
    requires |cs| > 0 && Known(cs[|cs| - 1])
    requires AllKnown(cs[..|cs| - 1]) && SingleInequalityField(cs[..|cs| - 1])
    requires InequalitySummary(cs[..|cs| - 1], inequality)
    requires var last := cs[|cs| - 1];
      !(OperatorNamed(last.operator).value != Eq && inequality.Some? && inequality.value != FieldNamed(last.field).value)
    ensures AllKnown(cs) && SingleInequalityField(cs)
    ensures var last := cs[|cs| - 1];
      InequalitySummary(cs, if OperatorNamed(last.operator).value != Eq then Some(FieldNamed(last.field).value) else inequality)
  {
    var prefix, last := cs[..|cs| - 1], cs[|cs| - 1];
    PrefixFacts(cs);
    var next := if OperatorNamed(last.operator).value != Eq then Some(FieldNamed(last.field).value) else inequality;
    forall i | 0 <= i < |cs| && InequalityField(cs[i]).Some?
      ensures next == InequalityField(cs[i])
    {
      if i < |prefix| {
        assert prefix[i] == cs[i];
      }
    }
    if next.None? {
      forall i | 0 <= i < |cs|
        ensures InequalityField(cs[i]).None?
      {
        if i < |prefix| {
          assert prefix[i] == cs[i];
        }
      }
    } else if OperatorNamed(last.operator).value == Eq {
      var k :| 0 <= k < |prefix| && InequalityField(prefix[k]).Some?;
      assert prefix[k] == cs[k];
    } else {
      assert InequalityField(cs[|cs| - 1]).Some?;
    }
  }

  /** A filter value as the store receives it; `Null` is Python's `None`. */
  datatype Value = Text(text: string) | Number(number: int) | Null

  /** A filter ready to hand to the store. */
  datatype QueryFilter = QueryFilter(field: Field, op: Op, value: Value)

  /** A sort key: a filterable property, or the conference name. */
  datatype SortKey = ByProperty(field: Field) | ByName

  /** The query `_getQuery` builds: the AND of its filters, in the given order. */
  datatype Query = Query(filters: seq<QueryFilter>, order: seq<SortKey>)

  /** Whether a field's values are converted with `int()` before filtering. */
  predicate IsNumeric(f: Field) {
    f == Month || f == MaxAttendees
  }

  /** The value a clause reaches the store with: `int()` of the value for a
      numeric field, which fails with NotAnInteger on text it cannot read and
      with MissingInteger on `None`; the value itself, or `None`, otherwise. */
  function CoerceValue(f: Field, value: Option<string>): Result<Value, Error> {
    if IsNumeric(f) then
      match value
      case None => Failure(MissingInteger)
      case Some(s) =>
        match Decimal.ParseInt(s)
        case Some(n) => Success(Number(n))
        case None => Failure(NotAnInteger)
    else Success(TextValue(value))
  }

  /** The value a text clause reaches the store with. */
  function TextValue(value: Option<string>): Value {
    match value
    case None => Null
    case Some(s) => Text(s)
  }

  /** The conversion of every filter value, in order; the first value that
      cannot be converted fails the whole query with its error. */
  function CoerceAll(fs: seq<Filter>): (r: Result<seq<QueryFilter>, Error>)
    ensures r.Success? <==> forall i :: 0 <= i < |fs| ==> CoerceValue(fs[i].field, fs[i].value).Success?
    ensures r.Failure? ==> exists i ::
      && 0 <= i < |fs|
      && (forall j :: 0 <= j < i ==> CoerceValue(fs[j].field, fs[j].value).Success?)
      && CoerceValue(fs[i].field, fs[i].value).Failure?
      && r.error == CoerceValue(fs[i].field, fs[i].value).error
    ensures r.Success? ==> |r.value| == |fs| && forall i :: 0 <= i < |fs| ==>
      r.value[i] == QueryFilter(fs[i].field, fs[i].op, CoerceValue(fs[i].field, fs[i].value).value)
  {
    if |fs| == 0 then Success([])
    else
      var head := CoerceValue(fs[0].field, fs[0].value);
      if head.Failure? then
        Failure(head.error)
      else
        var rest := CoerceAll(fs[1..]);
        if rest.Failure? then
          assert exists i ::
            && 0 <= i < |fs|
            && (forall j :: 0 <= j < i ==> CoerceValue(fs[j].field, fs[j].value).Success?)
            && CoerceValue(fs[i].field, fs[i].value).Failure?
            && rest.error == CoerceValue(fs[i].field, fs[i].value).error
          by {
            var k :| && 0 <= k < |fs[1..]|
                     && (forall j :: 0 <= j < k ==> CoerceValue(fs[1..][j].field, fs[1..][j].value).Success?)
                     && CoerceValue(fs[1..][k].field, fs[1..][k].value).Failure?
                     && rest.error == CoerceValue(fs[1..][k].field, fs[1..][k].value).error;
            assert fs[1..][k] == fs[k + 1];
            forall j | 0 <= j < k + 1
              ensures CoerceValue(fs[j].field, fs[j].value).Success?
            {
              if j > 0 {
                assert fs[1..][j - 1] == fs[j];
              }
            }
          }
          Failure(rest.error)
        else
          Success([QueryFilter(fs[0].field, fs[0].op, head.value)] + rest.value)
  }

  /** The value the store receives for a known clause, or the error `int()` raises. */
  function ClauseValue(c: Clause): Result<Value, Error>
    requires Known(c)
  {
    CoerceValue(FieldNamed(c.field).value, c.value)
  }

  /** The order `_getQuery` imposes: by the inequality field and then by
      name, or by name alone when there is no inequality. */
  function SortOrder(inequality: Option<Field>): seq<SortKey> {
    match inequality
    case None => [ByName]
    case Some(f) => [ByProperty(f), ByName]
  }

  /** `_getQuery`: the validated, ordered query for the clauses. */
  function GetQuery(cs: seq<Clause>): (r: Result<Query, Error>)
    ensures r.Success? <==>
      && AllKnown(cs)
      && SingleInequalityField(cs)
      && forall i :: 0 <= i < |cs| ==> ClauseValue(cs[i]).Success?
    ensures !AllKnown(cs) || !SingleInequalityField(cs) ==> r.Failure? && r.error.BadRequest?
    ensures AllKnown(cs) && SingleInequalityField(cs) && r.Failure? ==> exists i ::
      && 0 <= i < |cs|
      && (forall j :: 0 <= j < i ==> ClauseValue(cs[j]).Success?)
      && IsNumeric(FieldNamed(cs[i].field).value)
      && (cs[i].value.None? ==> r.error == MissingInteger)
      && (cs[i].value.Some? ==> Decimal.ParseInt(cs[i].value.value).None? && r.error == NotAnInteger)
    ensures r.Success? ==> |r.value.filters| == |cs| && forall i :: 0 <= i < |cs| ==>
      && r.value.filters[i].field == FieldNamed(cs[i].field).value
      && r.value.filters[i].op == OperatorNamed(cs[i].operator).value
      && (IsNumeric(r.value.filters[i].field) ==>
            cs[i].value.Some? &&
            r.value.filters[i].value == Number(Decimal.ParseInt(cs[i].value.value).value))
      && (!IsNumeric(r.value.filters[i].field) && cs[i].value.Some? ==>
            r.value.filters[i].value == Text(cs[i].value.value))
      && (!IsNumeric(r.value.filters[i].field) && cs[i].value.None? ==>
            r.value.filters[i].value == Null)
    ensures r.Success? && AllEqualities(cs) ==> r.value.order == [ByName]
    ensures r.Success? ==> forall i :: 0 <= i < |cs| && InequalityField(cs[i]).Some? ==>
      r.value.order == [ByProperty(InequalityField(cs[i]).value), ByName]
  {
    var (inequality, filters) :- FormatFilters(cs);
    var coerced := CoerceAll(filters);
    if coerced.Failure? then
      FirstFailingClause(cs, filters, coerced.error);
      Failure(coerced.error)
    else
      CoercedClauses(cs, filters, coerced.value);
      Success(Query(coerced.value, SortOrder(inequality)))
  }

  /** The filter that fails conversion first is the translation of the
      clause that fails first, and only a numeric clause can fail. */
  lemma FirstFailingClause(cs: seq<Clause>, filters: seq<Filter>, e: Error)
    requires AllKnown(cs) && |filters| == |cs|
    requires forall i :: 0 <= i < |cs| ==> filters[i] == Translate(cs[i])
    requires exists i ::
      && 0 <= i < |filters|
      && (forall j :: 0 <= j < i ==> CoerceValue(filters[j].field, filters[j].value).Success?)
      && CoerceValue(filters[i].field, filters[i].value).Failure?
      && e == CoerceValue(filters[i].field, filters[i].value).error
    ensures exists i ::
      && 0 <= i < |cs|
      && (forall j :: 0 <= j < i ==> ClauseValue(cs[j]).Success?)
      && IsNumeric(FieldNamed(cs[i].field).value)
      && (cs[i].value.None? ==> e == MissingInteger)
      && (cs[i].value.Some? ==> Decimal.ParseInt(cs[i].value.value).None? && e == NotAnInteger)
  {
    var i :|
      && 0 <= i < |filters|
      && (forall j :: 0 <= j < i ==> CoerceValue(filters[j].field, filters[j].value).Success?)
      && CoerceValue(filters[i].field, filters[i].value).Failure?
      && e == CoerceValue(filters[i].field, filters[i].value).error;
    assert filters[i] == Translate(cs[i]);
    forall j | 0 <= j < i
      ensures ClauseValue(cs[j]).Success?
    {
      assert filters[j] == Translate(cs[j]);
    }
  }

  /** Converted filters, read back against the clauses they came from. */
  lemma CoercedClauses(cs: seq<Clause>, filters: seq<Filter>, coerced: seq<QueryFilter>)
    requires AllKnown(cs) && |filters| == |cs|
    requires forall i :: 0 <= i < |cs| ==> filters[i] == Translate(cs[i])
    requires |coerced| == |filters| && forall i :: 0 <= i < |filters| ==>
      && CoerceValue(filters[i].field, filters[i].value).Success?
      && coerced[i] ==
           QueryFilter(filters[i].field, filters[i].op, CoerceValue(filters[i].field, filters[i].value).value)
    ensures forall i :: 0 <= i < |cs| ==> ClauseValue(cs[i]).Success?
    ensures forall i :: 0 <= i < |cs| ==>
      && coerced[i].field == FieldNamed(cs[i].field).value
      && coerced[i].op == OperatorNamed(cs[i].operator).value
      && (IsNumeric(coerced[i].field) ==>
            && cs[i].value.Some? && Decimal.ParseInt(cs[i].value.value).Some?
            && coerced[i].value == Number(Decimal.ParseInt(cs[i].value.value).value))
      && (!IsNumeric(coerced[i].field) && cs[i].value.Some? ==> coerced[i].value == Text(cs[i].value.value))
      && (!IsNumeric(coerced[i].field) && cs[i].value.None? ==> coerced[i].value == Null)
  {
    forall i | 0 <= i < |cs|
      ensures ClauseValue(cs[i]).Success?
      ensures coerced[i].field == FieldNamed(cs[i].field).value
      ensures coerced[i].value == ClauseValue(cs[i]).value
    {
      assert filters[i] == Translate(cs[i]);
    }
  }

  /** The store's restriction on a query: every inequality filter is on one
      field, and that field is the first sort key. */
  predicate StoreAccepts(q: Query) {
    forall i :: 0 <= i < |q.filters| && q.filters[i].op != Eq ==>
      |q.order| > 0 && q.order[0] == ByProperty(q.filters[i].field)
  }

  /** Every query the builder produces is one the store accepts, and it is
      always ordered by name last. */
  lemma {:induction false} GetQueryStoreAccepts(cs: seq<Clause>)
    requires GetQuery(cs).Success?
    ensures StoreAccepts(GetQuery(cs).value)
    ensures var order := GetQuery(cs).value.order; |order| > 0 && order[|order| - 1] == ByName
  {
    var q := GetQuery(cs).value;
    forall i | 0 <= i < |q.filters| && q.filters[i].op != Eq
      ensures |q.order| > 0 && q.order[0] == ByProperty(q.filters[i].field)
    {
      InequalityLeadsOrder(cs, i);
    }
    OrderEndsByName(cs);
  }

  /** The field of an inequality filter is the query's first sort key. */
  lemma InequalityLeadsOrder(cs: seq<Clause>, i: int)
    requires GetQuery(cs).Success?
    requires 0 <= i < |GetQuery(cs).value.filters| && GetQuery(cs).value.filters[i].op != Eq
    ensures var q := GetQuery(cs).value;
      q.order == [ByProperty(q.filters[i].field), ByName]
  {
    var q := GetQuery(cs).value;
    assert Known(cs[i]);
    assert q.filters[i].op == OperatorNamed(cs[i].operator).value;
    assert InequalityField(cs[i]) == Some(q.filters[i].field);
  }

  /** Every query the builder produces is ordered by name last. */
  lemma OrderEndsByName(cs: seq<Clause>)
    requires GetQuery(cs).Success?
    ensures var order := GetQuery(cs).value.order; |order| > 0 && order[|order| - 1] == ByName
  {
    if !AllEqualities(cs) {
      var k :| 0 <= k < |cs| && InequalityField(cs[k]).Some?;
      assert GetQuery(cs).value.order == [ByProperty(InequalityField(cs[k]).value), ByName];
    }
  }

  /** No clauses: every conference, ordered by name. */
  lemma EmptyQuery()
    ensures FormatFilters([]) == Success((None, []))
    ensures GetQuery([]) == Success(Query([], [ByName]))
  {
  }

  /** Clauses are checked in order: once a prefix of the request is
      rejected, the whole request is rejected with the same error. */
  lemma {:induction false} RejectionIsFinal(cs: seq<Clause>, n: int)
    requires 0 <= n <= |cs|
    requires FormatFilters(cs[..n]).Failure?
    ensures FormatFilters(cs) == FormatFilters(cs[..n])
    decreases |cs| - n
  {
    if n < |cs| {
      var prefix := cs[..|cs| - 1];
      assert prefix[..n] == cs[..n];
      RejectionIsFinal(prefix, n);
    } else {
      assert cs[..n] == cs;
    }
  }

  /** Two inequalities on different fields, with every clause up to the
      later of them known, are rejected as an inequality conflict whatever
      follows them. */
  lemma TwoInequalityFieldsRejected(cs: seq<Clause>, i: int, j: int)
    requires 0 <= i < j < |cs|
    requires forall k :: 0 <= k <= j ==> Known(cs[k])
    requires InequalityField(cs[i]).Some? && InequalityField(cs[j]).Some?
    requires InequalityField(cs[i]) != InequalityField(cs[j])
    ensures FormatFilters(cs) == Failure(BadRequest(InequalityOnSeveralFields))
  {
    var prefix := cs[..j + 1];
    assert prefix[i] == cs[i] && prefix[j] == cs[j];
    assert AllKnown(prefix);
    assert !SingleInequalityField(prefix);
    RejectionIsFinal(cs, j + 1);
  }

  /** An unknown field or operator name, with no inequality conflict before
      it, is rejected as an invalid filter whatever follows it. */
  lemma UnknownNameRejected(cs: seq<Clause>, i: int)
    requires 0 <= i < |cs| && !Known(cs[i])
    requires SingleInequalityField(cs[..i])
    ensures FormatFilters(cs) == Failure(BadRequest(InvalidFieldOrOperator))
  {
    UnknownLast(cs, i);
    RejectionIsFinal(cs, i + 1);
  }

  /** The clauses up to an unknown name, with no conflict before it, are
      rejected as an invalid filter. */
  lemma UnknownLast(cs: seq<Clause>, i: int)
    requires 0 <= i < |cs| && !Known(cs[i])
    requires SingleInequalityField(cs[..i])
    ensures FormatFilters(cs[..i + 1]) == Failure(BadRequest(InvalidFieldOrOperator))
  {
    var ext := cs[..i + 1];
    assert ext == cs[..i] + [cs[i]];
    AppendEquality(cs[..i], cs[i]);
    assert !AllKnown(ext) by {
      assert ext[i] == cs[i];
    }
  }

  /** Appending a clause that is not an inequality cannot cause a conflict. */
  lemma AppendEquality(cs: seq<Clause>, c: Clause)
    requires SingleInequalityField(cs) && InequalityField(c).None?
    ensures SingleInequalityField(cs + [c])
  {
    var ext := cs + [c];
    forall a, b |
      0 <= a < |ext| && 0 <= b < |ext| &&
      InequalityField(ext[a]).Some? && InequalityField(ext[b]).Some?
      ensures InequalityField(ext[a]) == InequalityField(ext[b])
    {
      assert a < |cs| && b < |cs|;
      assert ext[a] == cs[a] && ext[b] == cs[b];
    }
  }
}

=== FILE: query_semantics.dfy ===
/** What a query means: which conferences the store returns for it. The
    store's matching rules are stated over the translated filters; a second,
    independent reading states what each clause asks for in the client's own
    field and operator names. The two agree on every query the builder
    accepts. */
module QuerySemantics {
  import opened Wrappers
  import opened Errors
  import opened QueryFilters
  import opened Conferences
  import Decimal
  import Lists

  /** Lexicographic order on strings, character by character. */
  predicate TextLess(a: string, b: string)
    decreases |a|
  {
    if |a| == 0 then |b| > 0
    else if |b| == 0 then false
    else if a[0] != b[0] then a[0] < b[0]
    else TextLess(a[1..], b[1..])
  }

  predicate CompareNumbers(a: int, op: Op, b: int) {
    match op
    case Eq => a == b
    case Gt => a > b
    case GtEq => a >= b
    case Lt => a < b
    case LtEq => a <= b
    case Ne => a != b
  }

  predicate CompareTexts(a: string, op: Op, b: string) {
    match op
    case Eq => a == b
    case Gt => TextLess(b, a)
    case GtEq => a == b || TextLess(b, a)
    case Lt => TextLess(a, b)
    case LtEq => a == b || TextLess(a, b)
    case Ne => a != b
  }

  /** The store's comparison of a stored value with a filter value. Values
      of different kinds are never equal; the missing value sorts first and
      numbers sort before text. */
  predicate Compare(stored: Value, op: Op, given: Value) {
    match (stored, given)
    case (Number(a), Number(b)) => CompareNumbers(a, op, b)
    case (Text(a), Text(b)) => CompareTexts(a, op, b)
    case (Null, Null) => op == Eq || op == GtEq || op == LtEq
    case (Null, _) => op == Ne || op == Lt || op == LtEq
    case (_, Null) => op == Ne || op == Gt || op == GtEq
    case (Number(_), Text(_)) => op == Ne || op == Lt || op == LtEq
    case (Text(_), Number(_)) => op == Ne || op == Gt || op == GtEq
  }

  /** The values a conference holds under a property: one, or one per
      element of the repeated `topics`. */
  function Stored(c: Conference, f: Field): seq<Value> {
    match f
    case City => [Text(c.city)]
    case Topics => seq(|c.topics|, i requires 0 <= i < |c.topics| => Text(c.topics[i]))
    case Month => [Number(c.month)]
    case MaxAttendees => [Number(c.maxAttendees)]
  }

  /** A filter matches when some value of its property satisfies it. */
  predicate FilterMatches(c: Conference, qf: QueryFilter) {
    exists v :: v in Stored(c, qf.field) && Compare(v, qf.op, qf.value)
  }

  /** A query is the AND of its filters. */
  predicate QueryMatches(c: Conference, q: Query) {
    forall i :: 0 <= i < |q.filters| ==> FilterMatches(c, q.filters[i])
  }

  /** The conferences the store returns for a query, in the order it holds
      them. The store sorts them by the query's order keys; that sort is
      the store's and is not modelled here. */
  function Execute(q: Query, conferences: seq<Conference>): (r: seq<Conference>)
    ensures forall c :: c in r <==> c in conferences && QueryMatches(c, q)
  {
    Lists.Select(conferences, c => QueryMatches(c, q))
  }

  /** What a numeric clause asks of a stored number, read from the names. */
  predicate NumberClause(a: int, operator: string, value: Option<string>) {
    && value.Some?
    && var n := Decimal.ParseInt(value.value);
    && n.Some?
    && (|| (operator == "EQ" && a == n.value)
        || (operator == "GT" && a > n.value)
        || (operator == "GTEQ" && a >= n.value)
        || (operator == "LT" && a < n.value)
        || (operator == "LTEQ" && a <= n.value)
        || (operator == "NE" && a != n.value))
  }

  /** What a text clause asks of a stored string, read from the names. A
      clause without a value asks for strings above nothing: every present
      string is greater than it and differs from it. */
  predicate TextClause(a: string, operator: string, value: Option<string>) {
    match value
    case None => operator == "NE" || operator == "GT" || operator == "GTEQ"
    case Some(b) =>
      || (operator == "EQ" && a == b)
      || (operator == "GT" && TextLess(b, a))
      || (operator == "GTEQ" && (a == b || TextLess(b, a)))
      || (operator == "LT" && TextLess(a, b))
      || (operator == "LTEQ" && (a == b || TextLess(a, b)))
      || (operator == "NE" && a != b)
  }

  /** Whether a conference satisfies a clause, as the client means it. */
  predicate ClauseHolds(c: Conference, cl: Clause) {
    || (cl.field == "CITY" && TextClause(c.city, cl.operator, cl.value))
    || (cl.field == "TOPIC" && exists t :: t in c.topics && TextClause(t, cl.operator, cl.value))
    || (cl.field == "MONTH" && NumberClause(c.month, cl.operator, cl.value))
    || (cl.field == "MAX_ATTENDEES" && NumberClause(c.maxAttendees, cl.operator, cl.value))
  }

  /** A conference satisfies every clause of the request. */
  predicate AllClausesHold(c: Conference, cs: seq<Clause>) {
    forall i :: 0 <= i < |cs| ==> ClauseHolds(c, cs[i])
  }

  /** The filter the builder makes of a clause matches exactly the
      conferences the clause asks for. */
  lemma ClauseMeaning(c: Conference, cl: Clause, qf: QueryFilter)
    requires Known(cl)
    requires qf.field == FieldNamed(cl.field).value && qf.op == OperatorNamed(cl.operator).value
    requires IsNumeric(qf.field) ==>
      && cl.value.Some? && Decimal.ParseInt(cl.value.value).Some?
      && qf.value == Number(Decimal.ParseInt(cl.value.value).value)
    requires !IsNumeric(qf.field) ==> qf.value == TextValue(cl.value)
    ensures FilterMatches(c, qf) <==> ClauseHolds(c, cl)
  {
    match qf.field
    case Topics =>
      if FilterMatches(c, qf) {
        var v :| v in Stored(c, Topics) && Compare(v, qf.op, qf.value);
        var i :| 0 <= i < |c.topics| && Stored(c, Topics)[i] == v;
        assert c.topics[i] in c.topics && TextClause(c.topics[i], cl.operator, cl.value);
      }
      if ClauseHolds(c, cl) {
        var t :| t in c.topics && TextClause(t, cl.operator, cl.value);
        var i :| 0 <= i < |c.topics| && c.topics[i] == t;
        assert Stored(c, Topics)[i] == Text(t);
        assert Text(t) in Stored(c, Topics) && Compare(Text(t), qf.op, qf.value);
      }
      TextClauseMeaning(cl.operator, qf.op, cl.value);
    case City =>
      assert cl.field == "CITY";
      assert ClauseHolds(c, cl) <==> TextClause(c.city, cl.operator, cl.value);
      assert Stored(c, City) == [Text(c.city)];
      assert FilterMatches(c, qf) <==> Compare(Text(c.city), qf.op, qf.value);
      TextClauseMeaning(cl.operator, qf.op, cl.value);
    case Month =>
      assert cl.field == "MONTH";
      assert ClauseHolds(c, cl) <==> NumberClause(c.month, cl.operator, cl.value);
      assert Stored(c, Month) == [Number(c.month)];
      assert FilterMatches(c, qf) <==> Compare(Number(c.month), qf.op, qf.value);
      NumberClauseMeaning(cl.operator, qf.op, cl.value);
    case MaxAttendees =>
      assert cl.field == "MAX_ATTENDEES";
      assert ClauseHolds(c, cl) <==> NumberClause(c.maxAttendees, cl.operator, cl.value);
      assert Stored(c, MaxAttendees) == [Number(c.maxAttendees)];
      assert FilterMatches(c, qf) <==> Compare(Number(c.maxAttendees), qf.op, qf.value);
      NumberClauseMeaning(cl.operator, qf.op, cl.value);
  }

  lemma NumberClauseMeaning(operator: string, op: Op, value: Option<string>)
    requires OperatorNamed(operator) == Some(op)
    requires value.Some? && Decimal.ParseInt(value.value).Some?
    ensures forall a :: NumberClause(a, operator, value) <==>
      CompareNumbers(a, op, Decimal.ParseInt(value.value).value)
  {
  }

  lemma TextClauseMeaning(operator: string, op: Op, b: Option<string>)
    requires OperatorNamed(operator) == Some(op)
    ensures forall a :: TextClause(a, operator, b) <==> Compare(Text(a), op, TextValue(b))
  {
  }

  /** The query the builder returns matches exactly the conferences that
      satisfy every clause of the request. */
  lemma QueryMeaning(cs: seq<Clause>, c: Conference)
    requires GetQuery(cs).Success?
    ensures QueryMatches(c, GetQuery(cs).value) <==> AllClausesHold(c, cs)
  {
    var q := GetQuery(cs).value;
    forall i | 0 <= i < |cs|
      ensures FilterMatches(c, q.filters[i]) <==> ClauseHolds(c, cs[i])
    {
      ClauseMeaning(c, cs[i], q.filters[i]);
    }
  }

  /** Running the built query returns the conferences that satisfy every
      clause, and only those, in the store's order. */
  lemma ExecuteMeaning(cs: seq<Clause>, conferences: seq<Conference>)
    requires GetQuery(cs).Success?
    ensures Execute(GetQuery(cs).value, conferences) ==
      Lists.Select(conferences, c => AllClausesHold(c, cs))
  {
    var q := GetQuery(cs).value;
    forall c | c in conferences
      ensures QueryMatches(c, q) == AllClausesHold(c, cs)
    {
      QueryMeaning(cs, c);
    }
    Lists.SelectSameTest(conferences, c => QueryMatches(c, q), c => AllClausesHold(c, cs));
  }

  /** Clauses sent without a value: on a numeric field `int(None)` fails the
      query, on a text field the store compares against the missing value,
      which every present city exceeds. */
  lemma MissingValues(c: Conference)
    ensures GetQuery([Clause("MONTH", "GT", None)]) == Failure(MissingInteger)
    ensures GetQuery([Clause("CITY", "NE", None)]) ==
      Success(Query([QueryFilter(City, Ne, Null)], [ByProperty(City), ByName]))
    ensures QueryMatches(c, GetQuery([Clause("CITY", "NE", None)]).value)
    ensures !QueryMatches(c, Query([QueryFilter(City, Eq, Null)], [ByName]))
  {
    MissingMonth();
    MissingCity();
    MissingCityMatches(c);
  }

  lemma MissingMonth()
    ensures GetQuery([Clause("MONTH", "GT", None)]) == Failure(MissingInteger)
  {
    var cs := [Clause("MONTH", "GT", None)];
    assert InequalityField(cs[0]) == Some(Month);
    assert AllKnown(cs) && SingleInequalityField(cs);
    assert ClauseValue(cs[0]) == Failure(MissingInteger);
  }

  lemma MissingCity()
    ensures GetQuery([Clause("CITY", "NE", None)]) ==
      Success(Query([QueryFilter(City, Ne, Null)], [ByProperty(City), ByName]))
  {
    var cs := [Clause("CITY", "NE", None)];
    assert InequalityField(cs[0]) == Some(City);
    assert AllKnown(cs) && SingleInequalityField(cs);
    assert ClauseValue(cs[0]) == Success(Null);
    var q := GetQuery(cs).value;
    assert q.filters[0] == QueryFilter(City, Ne, Null);
    assert q.filters == [QueryFilter(City, Ne, Null)];
  }

  lemma MissingCityMatches(c: Conference)
    ensures QueryMatches(c, Query([QueryFilter(City, Ne, Null)], [ByProperty(City), ByName]))
    ensures !QueryMatches(c, Query([QueryFilter(City, Eq, Null)], [ByName]))
  {
    var q := Query([QueryFilter(City, Ne, Null)], [ByProperty(City), ByName]);
    assert Stored(c, City) == [Text(c.city)];
    assert Text(c.city) in Stored(c, City) && Compare(Text(c.city), Ne, Null);
    assert FilterMatches(c, q.filters[0]);
    var none := Query([QueryFilter(City, Eq, Null)], [ByName]);
    assert !FilterMatches(c, none.filters[0]) by {
      forall v | v in Stored(c, City)
        ensures !Compare(v, Eq, Null)
      {
        assert v == Text(c.city);
      }
    }
  }

  /** The example request "city is Paris and month after March". */
  lemma ParisAfterMarch()
    ensures GetQuery([Clause("CITY", "EQ", Some("Paris")), Clause("MONTH", "GT", Some("3"))]) ==
      Success(Query(
        [QueryFilter(City, Eq, Text("Paris")), QueryFilter(Month, Gt, Number(3))],
        [ByProperty(Month), ByName]))
  {
    var cs := [Clause("CITY", "EQ", Some("Paris")), Clause("MONTH", "GT", Some("3"))];
    ParisAfterMarchClauses(cs);
    assert forall i :: 0 <= i < |cs| ==> ClauseValue(cs[i]).Success?;
    var r := GetQuery(cs);
    var q := r.value;
    assert q.filters[0] == QueryFilter(City, Eq, Text("Paris"));
    assert q.filters[1] == QueryFilter(Month, Gt, Number(3));
    assert q.filters == [QueryFilter(City, Eq, Text("Paris")), QueryFilter(Month, Gt, Number(3))];
    assert q.order == [ByProperty(Month), ByName];
  }

  /** Each clause of the example request is known and converts. */
  lemma ParisAfterMarchClauses(cs: seq<Clause>)
    requires cs == [Clause("CITY", "EQ", Some("Paris")), Clause("MONTH", "GT", Some("3"))]
    ensures AllKnown(cs) && SingleInequalityField(cs)
    ensures InequalityField(cs[0]) == None && InequalityField(cs[1]) == Some(Month)
    ensures ClauseValue(cs[0]) == Success(Text("Paris"))
    ensures ClauseValue(cs[1]) == Success(Number(3))
    ensures Decimal.ParseInt("3") == Some(3)
  {
    assert Decimal.ParseInt("3") == Some(3) by {
      assert Decimal.AllDigits("3");
      assert "3"[..0] == "";
    }
    assert InequalityField(cs[1]) == Some(Month);
    assert InequalityField(cs[0]) == None;
  }
}

=== FILE: registration.dfy ===
/** Registering for and unregistering from a conference: one atomic
    transition on the caller's list of conferences to attend and the stored
    conferences' seat counts. */
module Registration {
  import opened Wrappers
  import opened Errors
  import opened Conferences
  import Lists

  /** The entities a registration reads and writes: the caller's profile
      list `conferenceKeysToAttend`, and the stored conferences by key. */
  datatype State = State(attending: seq<Token>, conferences: map<Token, Conference>)

  /** The new state and the boolean returned to the caller. */
  datatype Outcome = Outcome(state: State, result: bool)

  /** The conference under `wsck` with its seat count moved by `delta`. */
  function MoveSeats(conferences: map<Token, Conference>, wsck: Token, delta: int): map<Token, Conference>
    requires wsck in conferences
  {
    var c := conferences[wsck];
    conferences[wsck := c.(seatsAvailable := c.seatsAvailable + delta)]
  }

  /** `_conferenceRegistration`: register when `reg` holds, unregister
      otherwise, for the conference with websafe key `wsck`. */
  function ConferenceRegistration(s: State, wsck: Token, reg: bool): (r: Result<Outcome, Error>)
    ensures wsck !in s.conferences ==> r == Failure(NotFound)
    ensures reg && wsck in s.conferences && wsck in s.attending ==>
      r == Failure(Conflict(AlreadyRegistered))
    ensures
      reg && wsck in s.conferences && wsck !in s.attending && s.conferences[wsck].seatsAvailable <= 0
      ==> r == Failure(Conflict(NoSeatsAvailable))
    ensures reg ==> (r.Success? <==>
      wsck in s.conferences && wsck !in s.attending && s.conferences[wsck].seatsAvailable > 0)
    ensures reg && r.Success? ==>
      && r.value.result
      && r.value.state.attending == s.attending + [wsck]
      && r.value.state.conferences == MoveSeats(s.conferences, wsck, -1)
      && r.value.state.conferences[wsck].seatsAvailable >= 0
    ensures !reg ==> (r.Success? <==> wsck in s.conferences)
    ensures !reg && r.Success? ==> (r.value.result <==> wsck in s.attending)
    ensures !reg && r.Success? && wsck in s.attending ==>
      && r.value.state.attending == Lists.RemoveFirst(s.attending, wsck)
      && r.value.state.conferences == MoveSeats(s.conferences, wsck, 1)
    ensures !reg && r.Success? && wsck !in s.attending ==> r.value.state == s
  {
    if wsck !in s.conferences then Failure(NotFound)
    else
      var c := s.conferences[wsck];
      if reg then
        if wsck in s.attending then Failure(Conflict(AlreadyRegistered))
        else if c.seatsAvailable <= 0 then Failure(Conflict(NoSeatsAvailable))
        else Success(Outcome(State(s.attending + [wsck], MoveSeats(s.conferences, wsck, -1)), true))
      else if wsck in s.attending then
        Success(Outcome(State(Lists.RemoveFirst(s.attending, wsck), MoveSeats(s.conferences, wsck, 1)), true))
      else
        Success(Outcome(s, false))
  }

  /** Registering and then unregistering gives back the original list and
      seat count. */
  lemma RegisterThenUnregister(s: State, wsck: Token)
    requires ConferenceRegistration(s, wsck, true).Success?
    ensures var mid := ConferenceRegistration(s, wsck, true).value.state;
      ConferenceRegistration(mid, wsck, false) == Success(Outcome(s, true))
  {
    var mid := ConferenceRegistration(s, wsck, true).value.state;
    assert mid == State(s.attending + [wsck], MoveSeats(s.conferences, wsck, -1));
    assert wsck in mid.attending && wsck in mid.conferences;
    Lists.RemoveAppended(s.attending, wsck);
    MoveSeatsBack(s.conferences, wsck, -1);
  }

  /** Moving a conference's seat count and moving it back restores the map. */
  lemma MoveSeatsBack(conferences: map<Token, Conference>, wsck: Token, delta: int)
    requires wsck in conferences
    ensures MoveSeats(MoveSeats(conferences, wsck, delta), wsck, -delta) == conferences
  {
    var c := conferences[wsck];
    assert c.(seatsAvailable := c.seatsAvailable + delta).(seatsAvailable := c.seatsAvailable + delta - delta) == c;
  }

  /** Seats left plus the caller's registrations for a conference. */
  function Held(s: State, wsck: Token): int
    requires wsck in s.conferences
  {
    multiset(s.attending)[wsck] + s.conferences[wsck].seatsAvailable
  }

  /** Every successful transition moves a seat between the conference and
      the caller: their sum is unchanged, as is every other conference and
      every other field of this one. */
  lemma TransitionConservesSeats(s: State, wsck: Token, reg: bool)
    requires ConferenceRegistration(s, wsck, reg).Success?
    ensures var t := ConferenceRegistration(s, wsck, reg).value.state;
      && t.conferences.Keys == s.conferences.Keys
      && Held(t, wsck) == Held(s, wsck)
      && t.conferences[wsck] == s.conferences[wsck].(seatsAvailable := t.conferences[wsck].seatsAvailable)
      && (forall k :: k in s.conferences && k != wsck ==> t.conferences[k] == s.conferences[k])
      && (forall k :: k != wsck ==> multiset(t.attending)[k] == multiset(s.attending)[k])
  {
  }

  /** A caller who never holds a conference twice keeps it that way, and
      after unregistering no longer holds it at all. */
  lemma TransitionKeepsNoDuplicates(s: State, wsck: Token, reg: bool)
    requires Lists.NoDuplicates(s.attending)
    requires ConferenceRegistration(s, wsck, reg).Success?
    ensures Lists.NoDuplicates(ConferenceRegistration(s, wsck, reg).value.state.attending)
    ensures !reg ==> wsck !in ConferenceRegistration(s, wsck, reg).value.state.attending
  {
    var t := ConferenceRegistration(s, wsck, reg).value.state;
    if reg {
      forall i, j | 0 <= i < j < |t.attending|
        ensures t.attending[i] != t.attending[j]
      {
        if j == |s.attending| {
          assert t.attending[i] == s.attending[i];
        }
      }
    } else if wsck in s.attending {
      Lists.RemoveFirstNoDuplicates(s.attending, wsck);
    }
  }

  /** `n` registrations for `wsck`, each by a different user who holds no
      registration yet. */
  function RegisterNewUsers(conferences: map<Token, Conference>, wsck: Token, n: nat)
    : Result<map<Token, Conference>, Error>
  {
    if n == 0 then Success(conferences)
    else
      var previous :- RegisterNewUsers(conferences, wsck, n - 1);
      var outcome :- ConferenceRegistration(State([], previous), wsck, true);
      Success(outcome.state.conferences)
  }

  /** While seats last, each new user takes exactly one. */
  lemma {:induction false} NewUsersTakeOneSeatEach(conferences: map<Token, Conference>, wsck: Token, n: nat)
    requires wsck in conferences && conferences[wsck].seatsAvailable >= n
    ensures RegisterNewUsers(conferences, wsck, n).Success?
    ensures RegisterNewUsers(conferences, wsck, n).value ==
      MoveSeats(conferences, wsck, 0 - n)
  {
    if n > 0 {
      NewUsersTakeOneSeatEach(conferences, wsck, n - 1);
      var previous := RegisterNewUsers(conferences, wsck, n - 1).value;
      assert previous[wsck].seatsAvailable == conferences[wsck].seatsAvailable - (n - 1);
      assert MoveSeats(previous, wsck, -1) == MoveSeats(conferences, wsck, 0 - n);
    }
  }

  /** A conference created for ten attendees, after five registrations, has
      five seats left and is announced as almost sold out. */
  lemma TenSeatsFiveRegistrations(form: ConferenceForm, organizer: UserId, wsck: Token)
    requires HasName(form.name) && form.maxAttendees == Some(10)
    ensures var created := CreateConference(form, organizer).value;
      && created.seatsAvailable == 10
      && RegisterNewUsers(map[wsck := created], wsck, 5).Success?
      && var after := RegisterNewUsers(map[wsck := created], wsck, 5).value[wsck];
        && after.seatsAvailable == 5
        && AlmostSoldOut(after)
        && Announcement([after]) == LastChanceAnnouncement
  {
    var created := CreateConference(form, organizer).value;
    NewUsersTakeOneSeatEach(map[wsck := created], wsck, 5);
    var after := RegisterNewUsers(map[wsck := created], wsck, 5).value[wsck];
    assert AlmostSoldOut([after][0]);
  }
}

=== FILE: sessions.dfy ===
/** Sessions of a conference: creating one (with the featured-speaker
    trigger) and the "different type, earlier start" lookup that the store
    cannot answer with a single query. */
module Sessions {
  import opened Wrappers
  import opened Errors
  import opened Conferences
  import Lists

  /** A time of day in minutes since midnight, as `strptime(..., "%H:%M").time()` gives it. */
  type Minutes = m: int | 0 <= m < 1440

  /** A stored Session entity, under the conference whose websafe key it keeps. */
  datatype Session = Session(
    name: string,
    speaker: Option<string>,
    typeOfSession: Option<string>,
    date: Option<Date>,
    startTime: Option<Minutes>,
    conference: Token)

  /** The fields of a SessionForm request that the logic reads. */
  datatype SessionForm = SessionForm(
    name: Option<string>,
    speaker: Option<string>,
    typeOfSession: Option<string>,
    date: Option<Date>,
    startTime: Option<Minutes>,
    websafeConferenceKey: Token)

  // ---- sessions of a different type that start earlier ----

  /** Python 2's truth value of a `datetime.time`: midnight counts as false. */
  predicate TimeIsTruthy(t: Minutes) {
    t != 0
  }

  /** The scan's test as written: `session.startTime and session.startTime < requestTime`,
      applied to the sessions whose type differs from the excluded one. */
  predicate KeptAsWritten(s: Session, excluded: Option<string>, before: Minutes) {
    && s.typeOfSession != excluded
    && s.startTime.Some?
    && TimeIsTruthy(s.startTime.value)
    && s.startTime.value < before
  }

  /** `getConferenceSessionsByTypeAndStartTime` as written. */
  function SessionsByTypeAndStartTimeAsWritten(sessions: seq<Session>, excluded: Option<string>, before: Minutes)
    : (r: seq<Session>)
    ensures forall s :: s in r <==> s in sessions && KeptAsWritten(s, excluded, before)
    ensures forall s :: multiset(r)[s] == if KeptAsWritten(s, excluded, before) then multiset(sessions)[s] else 0
  {
    Lists.Select(sessions, (s: Session) => KeptAsWritten(s, excluded, before))
  }

  /** A session of another type starting at midnight is earlier than 01:00,
      yet the scan as written drops it. */
  lemma MidnightSessionDroppedAsWritten()
    ensures var midnight := Session("Keynote", None, Some("Talk"), None, Some(0), "conf");
      && SessionsByTypeAndStartTimeAsWritten([midnight], Some("Workshop"), 60) == []
      && SessionsByTypeAndStartTime([midnight], Some("Workshop"), 60) == [midnight]
  {
  }

  /** With no type in the request the store's `typeOfSession != None` keeps
      only the sessions that have a type, and both scans follow it. */
  lemma OmittedTypeKeepsTypedSessions()
    ensures var untyped := Session("Lunch", None, None, None, Some(30), "conf");
      var typed := Session("Keynote", None, Some("Talk"), None, Some(30), "conf");
      && SessionsByTypeAndStartTimeAsWritten([untyped, typed], None, 60) == [typed]
      && SessionsByTypeAndStartTime([untyped, typed], None, 60) == [typed]
  {
    var untyped := Session("Lunch", None, None, None, Some(30), "conf");
    var typed := Session("Keynote", None, Some("Talk"), None, Some(30), "conf");
    ScanPair(untyped, typed, None, 60);
  }

  /** Both scans over two sessions keep each one their test passes, in order. */
  lemma ScanPair(x: Session, y: Session, excluded: Option<string>, before: Minutes)
    ensures SessionsByTypeAndStartTimeAsWritten([x, y], excluded, before) ==
      (if KeptAsWritten(x, excluded, before) then [x] else []) + (if KeptAsWritten(y, excluded, before) then [y] else [])
    ensures SessionsByTypeAndStartTime([x, y], excluded, before) ==
      (if Kept(x, excluded, before) then [x] else []) + (if Kept(y, excluded, before) then [y] else [])
  {
    Lists.SelectPair(x, y, (s: Session) => KeptAsWritten(s, excluded, before));
    Lists.SelectPair(x, y, (s: Session) => Kept(s, excluded, before));
  }

  /** The test the scan evidently intends: a different type, and a start
      time that is present and strictly earlier. */
  predicate Kept(s: Session, excluded: Option<string>, before: Minutes) {
    && s.typeOfSession != excluded
    && s.startTime.Some?
    && s.startTime.value < before
  }

  /** The sessions of a different type that start strictly before `before`,
      in the order the store yields them. */
  function SessionsByTypeAndStartTime(sessions: seq<Session>, excluded: Option<string>, before: Minutes)
    : (r: seq<Session>)
    ensures |r| <= |sessions|
    ensures forall s :: s in r <==> s in sessions && Kept(s, excluded, before)
    ensures forall s :: multiset(r)[s] == if Kept(s, excluded, before) then multiset(sessions)[s] else 0
  {
    Lists.Select(sessions, (s: Session) => Kept(s, excluded, before))
  }

  /** The scan keeps the store's order: scanning two runs of results one
      after the other gives the two answers one after the other. */
  lemma ByTypeAndStartTimeKeepsOrder(a: seq<Session>, b: seq<Session>, excluded: Option<string>, before: Minutes)
    ensures SessionsByTypeAndStartTime(a + b, excluded, before) ==
      SessionsByTypeAndStartTime(a, excluded, before) + SessionsByTypeAndStartTime(b, excluded, before)
  {
    Lists.SelectAppend(a, b, (s: Session) => Kept(s, excluded, before));
  }

  /** A later cut-off time never loses a session. */
  lemma LaterCutoffKeepsMore(sessions: seq<Session>, excluded: Option<string>, t1: Minutes, t2: Minutes)
    requires t1 <= t2
    ensures forall s :: s in SessionsByTypeAndStartTime(sessions, excluded, t1) ==>
      s in SessionsByTypeAndStartTime(sessions, excluded, t2)
  {
  }

  /** The two scans differ only on sessions that start at midnight. */
  lemma AsWrittenDiffersOnlyAtMidnight(sessions: seq<Session>, excluded: Option<string>, before: Minutes)
    ensures forall s: Session :: s.startTime != Some(0) ==>
      (s in SessionsByTypeAndStartTimeAsWritten(sessions, excluded, before) <==>
       s in SessionsByTypeAndStartTime(sessions, excluded, before))
  {
  }

  // ---- featured speaker ----

  /** What is handed to the task queue for a featured speaker. */
  datatype FeaturedSpeaker = FeaturedSpeaker(speaker: Option<string>, sessionNames: seq<string>)

  function SessionsBy(sessions: seq<Session>, speaker: Option<string>): seq<Session> {
    Lists.Select(sessions, (s: Session) => s.speaker == speaker)
  }

  function Names(sessions: seq<Session>): (names: seq<string>)
    ensures |names| == |sessions|
    ensures forall i :: 0 <= i < |sessions| ==> names[i] == sessions[i].name
  {
    seq(|sessions|, i requires 0 <= i < |sessions| => sessions[i].name)
  }

  /** The names of the selected sessions are exactly the names that some
      session passing the test carries. */
  lemma NamesSelected(sessions: seq<Session>, keep: Session -> bool)
    ensures forall n :: n in Names(Lists.Select(sessions, keep)) <==>
      exists i :: 0 <= i < |sessions| && keep(sessions[i]) && sessions[i].name == n
  {
    var same := Lists.Select(sessions, keep);
    forall n | n in Names(same)
      ensures exists i :: 0 <= i < |sessions| && keep(sessions[i]) && sessions[i].name == n
    {
      var k :| 0 <= k < |same| && Names(same)[k] == n;
      assert same[k] in same;
      var i :| 0 <= i < |sessions| && sessions[i] == same[k];
    }
    forall n | exists i :: 0 <= i < |sessions| && keep(sessions[i]) && sessions[i].name == n
      ensures n in Names(same)
    {
      var i :| 0 <= i < |sessions| && keep(sessions[i]) && sessions[i].name == n;
      assert sessions[i] in same;
      var k :| 0 <= k < |same| && same[k] == sessions[i];
      assert Names(same)[k] == n;
    }
  }

  /** The names of the speaker's sessions. */
  lemma NamesBy(sessions: seq<Session>, speaker: Option<string>)
    ensures forall n :: n in Names(SessionsBy(sessions, speaker)) <==>
      exists i :: 0 <= i < |sessions| && sessions[i].speaker == speaker && sessions[i].name == n
  {
    NamesSelected(sessions, (s: Session) => s.speaker == speaker);
  }

  /** The trigger as written: the count is taken over the conference's
      sessions before the new one is stored, so the speaker must already
      have two sessions there. */
  function FeaturedSpeakerAsWritten(existing: seq<Session>, speaker: Option<string>)
    : (r: Option<FeaturedSpeaker>)
    ensures r.Some? <==> exists i, j ::
      0 <= i < j < |existing| && existing[i].speaker == speaker && existing[j].speaker == speaker
    ensures r.Some? ==> r.value.speaker == speaker
    ensures r.Some? ==> |r.value.sessionNames| == |SessionsBy(existing, speaker)|
    ensures r.Some? ==> forall n :: n in r.value.sessionNames <==>
      exists i :: 0 <= i < |existing| && existing[i].speaker == speaker && existing[i].name == n
  {
    var same := SessionsBy(existing, speaker);
    Lists.SelectAtLeastTwo(existing, (s: Session) => s.speaker == speaker);
    NamesBy(existing, speaker);
    if |same| > 1 then Some(FeaturedSpeaker(speaker, Names(same))) else None
  }

  /** A speaker's second session in a conference does not trigger the
      featured-speaker task as written, although the speaker then has two. */
  lemma SecondSessionNotFeaturedAsWritten()
    ensures var first := Session("Intro", Some("Ada"), None, None, None, "conf");
      var second := Session("Deep dive", Some("Ada"), None, None, None, "conf");
      && |SessionsBy([first, second], Some("Ada"))| == 2
      && FeaturedSpeakerAsWritten([first], Some("Ada")) == None
      && FeaturedSpeakerFor([first], second) ==
           Some(FeaturedSpeaker(Some("Ada"), ["Intro", "Deep dive"]))
  {
    var first := Session("Intro", Some("Ada"), None, None, None, "conf");
    var second := Session("Deep dive", Some("Ada"), None, None, None, "conf");
    assert [first] + [second] == [first, second];
    SpeakerCount([first], second);
    assert SessionsBy([first], Some("Ada")) == [first] by {
      assert [first][1..] == [];
    }
    assert SessionsBy([first, second], Some("Ada")) == [first, second];
    assert Names([first, second]) == ["Intro", "Deep dive"];
  }

  /** Counting the new session along with the stored ones adds exactly it,
      at the end; the speaker already had a session exactly when one of the
      stored sessions is theirs. */
  lemma SpeakerCount(existing: seq<Session>, created: Session)
    ensures SessionsBy(existing + [created], created.speaker) ==
      SessionsBy(existing, created.speaker) + [created]
    ensures |SessionsBy(existing, created.speaker)| > 0 <==>
      exists i :: 0 <= i < |existing| && existing[i].speaker == created.speaker
  {
    SpeakerAppended(existing, created);
    SpeakerPresent(existing, created.speaker);
  }

  lemma SpeakerAppended(existing: seq<Session>, created: Session)
    ensures SessionsBy(existing + [created], created.speaker) ==
      SessionsBy(existing, created.speaker) + [created]
  {
    Lists.SelectAppend(existing, [created], (s: Session) => s.speaker == created.speaker);
    assert Lists.Select([created], (s: Session) => s.speaker == created.speaker) == [created] by {
      assert [created][1..] == [];
    }
  }

  lemma SpeakerPresent(existing: seq<Session>, speaker: Option<string>)
    ensures |SessionsBy(existing, speaker)| > 0 <==>
      exists i :: 0 <= i < |existing| && existing[i].speaker == speaker
  {
    var same := SessionsBy(existing, speaker);
    if |same| > 0 {
      assert same[0] in same;
      assert same[0] in existing;
    }
    if exists i :: 0 <= i < |existing| && existing[i].speaker == speaker {
      var i :| 0 <= i < |existing| && existing[i].speaker == speaker;
      assert existing[i] in same;
    }
  }

  /** With the new session counted, the speaker's session names are the
      stored ones by the speaker followed by the new one. */
  lemma SpeakerNamesWithNew(existing: seq<Session>, created: Session)
    ensures var names := Names(SessionsBy(existing + [created], created.speaker));
      && |names| > 0 && names[|names| - 1] == created.name
      && forall n :: n in names <==>
           (n == created.name ||
            exists i :: 0 <= i < |existing| && existing[i].speaker == created.speaker && existing[i].name == n)
  {
    var same := SessionsBy(existing, created.speaker);
    var names := Names(SessionsBy(existing + [created], created.speaker));
    SpeakerAppended(existing, created);
    NamesAppend(same, created);
    assert names == Names(same) + [created.name];
    NamesBy(existing, created.speaker);
    forall n
      ensures n in names <==> (n in Names(same) || n == created.name)
    {
    }
  }

  /** Naming a list with one more session at its end adds that session's name. */
  lemma NamesAppend(sessions: seq<Session>, last: Session)
    ensures Names(sessions + [last]) == Names(sessions) + [last.name]
  {
  }

  /** The trigger the comment at conference.py:539 ("If specified speaker did
      more than 1 session") evidently intends: the new session counts, so a
      speaker is featured as soon as it holds more than one session in the
      conference, and the names include the new one. */
  function FeaturedSpeakerFor(existing: seq<Session>, created: Session): (r: Option<FeaturedSpeaker>)
    ensures r.Some? <==> exists i :: 0 <= i < |existing| && existing[i].speaker == created.speaker
    ensures r.Some? ==> r.value.speaker == created.speaker
    ensures r.Some? ==>
      |r.value.sessionNames| >= 2 && r.value.sessionNames[|r.value.sessionNames| - 1] == created.name
    ensures r.Some? ==> |r.value.sessionNames| == |SessionsBy(existing, created.speaker)| + 1
    ensures r.Some? ==> forall n :: n in r.value.sessionNames <==>
      (n == created.name ||
       exists i :: 0 <= i < |existing| && existing[i].speaker == created.speaker && existing[i].name == n)
  {
    var same := SessionsBy(existing + [created], created.speaker);
    SpeakerCount(existing, created);
    SpeakerNamesWithNew(existing, created);
    if |same| > 1 then Some(FeaturedSpeaker(created.speaker, Names(same))) else None
  }

  /** The sessions stored under the conference with websafe key `wsck`:
      the ancestor query. */
  function SessionsOf(stored: seq<Session>, wsck: Token): seq<Session> {
    Lists.Select(stored, (s: Session) => s.conference == wsck)
  }

  /** The session is stored under the conference `wsck` and given by `speaker`. */
  predicate SpokeIn(s: Session, wsck: Token, speaker: Option<string>) {
    s.conference == wsck && s.speaker == speaker
  }

  lemma SpeakerInConference(stored: seq<Session>, wsck: Token, speaker: Option<string>)
    ensures (exists i :: 0 <= i < |SessionsOf(stored, wsck)| && SessionsOf(stored, wsck)[i].speaker == speaker)
      <==> exists i :: 0 <= i < |stored| && stored[i].conference == wsck && stored[i].speaker == speaker
  {
    var inConference := SessionsOf(stored, wsck);
    if exists i :: 0 <= i < |inConference| && inConference[i].speaker == speaker {
      var k :| 0 <= k < |inConference| && inConference[k].speaker == speaker;
      assert inConference[k] in stored;
    }
    if exists i :: 0 <= i < |stored| && stored[i].conference == wsck && stored[i].speaker == speaker {
      var i :| 0 <= i < |stored| && stored[i].conference == wsck && stored[i].speaker == speaker;
      assert stored[i] in inConference;
    }
  }

  /** The speaker filter on the ancestor query selects, in store order,
      exactly the stored sessions of the conference by the speaker. */
  lemma SpeakerSessionsOfConference(stored: seq<Session>, wsck: Token, speaker: Option<string>)
    ensures SessionsBy(SessionsOf(stored, wsck), speaker) ==
      Lists.Select(stored, (s: Session) => SpokeIn(s, wsck, speaker))
  {
    Lists.SelectSelect(stored, (s: Session) => s.conference == wsck, (s: Session) => s.speaker == speaker,
      (s: Session) => SpokeIn(s, wsck, speaker));
  }

  /** The names the ancestor-plus-speaker query yields are the names of the
      stored sessions of the conference by the speaker. */
  lemma SpeakerNamesOfConference(stored: seq<Session>, wsck: Token, speaker: Option<string>)
    ensures forall n :: n in Names(SessionsBy(SessionsOf(stored, wsck), speaker)) <==>
      exists i :: 0 <= i < |stored| && SpokeIn(stored[i], wsck, speaker) && stored[i].name == n
  {
    SpeakerSessionsOfConference(stored, wsck, speaker);
    NamesSelected(stored, (s: Session) => SpokeIn(s, wsck, speaker));
  }

  /** The corrected trigger on the ancestor query, read over every stored
      session: a stored session of the conference by the speaker fires it, and
      the task names those sessions and the new one. */
  lemma FeaturedInConference(stored: seq<Session>, created: Session)
    ensures var r := FeaturedSpeakerFor(SessionsOf(stored, created.conference), created);
      && (r.Some? <==> exists i :: 0 <= i < |stored| && SpokeIn(stored[i], created.conference, created.speaker))
      && (r.Some? ==>
            |r.value.sessionNames| ==
            |Lists.Select(stored, (s: Session) => SpokeIn(s, created.conference, created.speaker))| + 1)
      && (r.Some? ==> forall n :: n in r.value.sessionNames <==>
            (n == created.name || exists i ::
               0 <= i < |stored| && SpokeIn(stored[i], created.conference, created.speaker) &&
               stored[i].name == n))
  {
    var inConference := SessionsOf(stored, created.conference);
    var r := FeaturedSpeakerFor(inConference, created);
    SpeakerInConference(stored, created.conference, created.speaker);
    if r.Some? {
      var names := Names(SessionsBy(inConference, created.speaker));
      SpeakerSessionsOfConference(stored, created.conference, created.speaker);
      SpeakerNamesOfConference(stored, created.conference, created.speaker);
      NamesBy(inConference, created.speaker);
      forall n
        ensures n in r.value.sessionNames <==>
          (n == created.name || exists i ::
             0 <= i < |stored| && SpokeIn(stored[i], created.conference, created.speaker) &&
             stored[i].name == n)
      {
        assert n in r.value.sessionNames <==> (n == created.name || n in names);
      }
    }
  }

  /** The session `createSession` stores for the form. */
  function NewSession(form: SessionForm): Session
    requires form.name.Some?
  {
    Session(form.name.value, form.speaker, form.typeOfSession, form.date, form.startTime, form.websafeConferenceKey)
  }

  /** `createSession` as written, for `user`, given the conference stored
      under the form's websafe key (`None` when there is none) and every
      stored session: the session to store and the featured-speaker task, if
      any. The speaker's sessions are counted before the new one is stored. */
  function CreateSessionAsWritten(form: SessionForm, user: UserId, conference: Option<Conference>, stored: seq<Session>)
    : (r: Result<(Session, Option<FeaturedSpeaker>), Error>)
    ensures !HasName(form.name) ==> r == Failure(BadRequest(NameRequired))
    ensures HasName(form.name) && conference.None? ==> r == Failure(NotFound)
    ensures HasName(form.name) && conference.Some? && conference.value.organizerUserId != user ==>
      r == Failure(Forbidden)
    ensures r.Success? <==>
      HasName(form.name) && conference.Some? && conference.value.organizerUserId == user
    ensures r.Success? ==>
      r.value.0 == Session(form.name.value, form.speaker, form.typeOfSession, form.date,
                           form.startTime, form.websafeConferenceKey)
    ensures r.Success? ==> (r.value.1.Some? <==> exists i, j ::
      0 <= i < j < |stored| &&
      SpokeIn(stored[i], form.websafeConferenceKey, form.speaker) &&
      SpokeIn(stored[j], form.websafeConferenceKey, form.speaker))
    ensures r.Success? && r.value.1.Some? ==>
      && r.value.1.value.speaker == form.speaker
      && |r.value.1.value.sessionNames| ==
           |Lists.Select(stored, (s: Session) => SpokeIn(s, form.websafeConferenceKey, form.speaker))|
      && forall n :: n in r.value.1.value.sessionNames <==> exists i ::
           0 <= i < |stored| && SpokeIn(stored[i], form.websafeConferenceKey, form.speaker) &&
           stored[i].name == n
  {
    if !HasName(form.name) then Failure(BadRequest(NameRequired))
    else if conference.None? then Failure(NotFound)
    else if conference.value.organizerUserId != user then Failure(Forbidden)
    else
      var wsck := form.websafeConferenceKey;
      var featured := FeaturedSpeakerAsWritten(SessionsOf(stored, wsck), form.speaker);
      SpeakerSessionsOfConference(stored, wsck, form.speaker);
      Lists.SelectAtLeastTwo(stored, (s: Session) => SpokeIn(s, wsck, form.speaker));
      SpeakerNamesOfConference(stored, wsck, form.speaker);
      Success((NewSession(form), featured))
  }

  /** `createSession` with the featured-speaker trigger of `FeaturedSpeakerFor`:
      the task is sent as soon as the new session gives its speaker more than
      one session in the conference, and names them all. */
  function CreateSession(form: SessionForm, user: UserId, conference: Option<Conference>, stored: seq<Session>)
    : (r: Result<(Session, Option<FeaturedSpeaker>), Error>)
    ensures !HasName(form.name) ==> r == Failure(BadRequest(NameRequired))
    ensures HasName(form.name) && conference.None? ==> r == Failure(NotFound)
    ensures HasName(form.name) && conference.Some? && conference.value.organizerUserId != user ==>
      r == Failure(Forbidden)
    ensures r.Success? <==>
      HasName(form.name) && conference.Some? && conference.value.organizerUserId == user
    ensures r.Success? ==>
      r.value.0 == Session(form.name.value, form.speaker, form.typeOfSession, form.date,
                           form.startTime, form.websafeConferenceKey)
    ensures r.Success? ==> (r.value.1.Some? <==> exists i ::
      0 <= i < |stored| && SpokeIn(stored[i], form.websafeConferenceKey, form.speaker))
    ensures r.Success? && r.value.1.Some? ==>
      && r.value.1.value.speaker == form.speaker
      && |r.value.1.value.sessionNames| ==
           |Lists.Select(stored, (s: Session) => SpokeIn(s, form.websafeConferenceKey, form.speaker))| + 1
      && forall n :: n in r.value.1.value.sessionNames <==>
           (n == form.name.value || exists i ::
              0 <= i < |stored| && SpokeIn(stored[i], form.websafeConferenceKey, form.speaker) &&
              stored[i].name == n)
  {
    if !HasName(form.name) then Failure(BadRequest(NameRequired))
    else if conference.None? then Failure(NotFound)
    else if conference.value.organizerUserId != user then Failure(Forbidden)
    else
      var wsck := form.websafeConferenceKey;
      var created := NewSession(form);
      var featured := FeaturedSpeakerFor(SessionsOf(stored, wsck), created);
      FeaturedInConference(stored, created);
      Success((created, featured))
  }
}

=== FILE: wishlist.dfy ===
/** The session wishlist on a user's profile: a list of websafe session keys. */
module Wishlist {
  import opened Wrappers
  import opened Errors
  import opened Conferences
  import Lists

  /** `deleteSessionInWishlist`: walk the wishlist, and at the first entry
      equal to the requested key remove that key and answer true; answer
      false, with the list untouched, when no entry matches. */
  method DeleteSessionInWishlist(wishlist: seq<Token>, key: Token) returns (updated: seq<Token>, removed: bool)
    ensures removed <==> key in wishlist
    ensures !removed ==> updated == wishlist
    ensures removed ==> |updated| == |wishlist| - 1
    ensures updated == Lists.RemoveFirst(wishlist, key)
  {
    var i := 0;
    while i < |wishlist|
      invariant 0 <= i <= |wishlist|
      invariant key !in wishlist[..i]
    {
      if wishlist[i] == key {
        Lists.RemoveFirstAt(wishlist, key, i);
        return wishlist[..i] + wishlist[i + 1..], true;
      }
      assert wishlist[..i + 1] == wishlist[..i] + [wishlist[i]];
      i := i + 1;
    }
    assert wishlist[..i] == wishlist;
    return wishlist, false;
  }

  /** The two shapes a session reference takes in the source: the websafe
      string kept in the profile, and the datastore key object. Python
      equality between a key object and a string is always false. */
  datatype Reference = WebsafeString(websafe: Token) | StoreKey(key: Token)

  /** The stored wishlist as the values Python compares against. */
  function StoredReferences(wishlist: seq<Token>): (refs: seq<Reference>)
    ensures |refs| == |wishlist|
    ensures forall i :: 0 <= i < |refs| ==> refs[i] == WebsafeString(wishlist[i])
  {
    seq(|wishlist|, i requires 0 <= i < |wishlist| => WebsafeString(wishlist[i]))
  }

  /** `addSessionToWishlist` as written: the session must exist, and the
      duplicate guard asks whether the session's key object is among the
      stored websafe strings before appending the websafe string. */
  function AddSessionToWishlistAsWritten(wishlist: seq<Token>, sessions: set<Token>, key: Token)
    : (r: Result<seq<Token>, Error>)
    ensures key !in sessions ==> r == Failure(NotFound)
    ensures key in sessions ==> r.Success? && r.value == wishlist + [key]
  {
    if key !in sessions then Failure(NotFound)
    else if StoreKey(key) in StoredReferences(wishlist) then Failure(BadRequest(AlreadyInWishlist))
    else Success(wishlist + [key])
  }

  /** The guard never fires: adding a session already on the wishlist
      succeeds and stores it a second time. */
  lemma AddTwiceAsWrittenDuplicates(wishlist: seq<Token>, sessions: set<Token>, key: Token)
    requires key in sessions
    ensures var once := AddSessionToWishlistAsWritten(wishlist, sessions, key).value;
      && AddSessionToWishlistAsWritten(once, sessions, key) == Success(wishlist + [key, key])
      && !Lists.NoDuplicates(wishlist + [key, key])
  {
    var twice := wishlist + [key, key];
    assert twice[|wishlist|] == twice[|wishlist| + 1];
    assert wishlist + [key] + [key] == twice;
  }

  /** `addSessionToWishlist` with the duplicate check it evidently intends:
      a session already on the wishlist is refused as a bad request. */
  function AddSessionToWishlist(wishlist: seq<Token>, sessions: set<Token>, key: Token)
    : (r: Result<seq<Token>, Error>)
    ensures key !in sessions ==> r == Failure(NotFound)
    ensures key in sessions && key in wishlist ==> r == Failure(BadRequest(AlreadyInWishlist))
    ensures key in sessions && key !in wishlist ==> r == Success(wishlist + [key])
    ensures r.Success? && Lists.NoDuplicates(wishlist) ==> Lists.NoDuplicates(r.value)
  {
    if key !in sessions then Failure(NotFound)
    else if key in wishlist then Failure(BadRequest(AlreadyInWishlist))
    else
      var added := wishlist + [key];
      assert Lists.NoDuplicates(wishlist) ==> Lists.NoDuplicates(added) by {
        if Lists.NoDuplicates(wishlist) {
          forall i, j | 0 <= i < j < |added|
            ensures added[i] != added[j]
          {
            if j == |wishlist| {
              assert added[i] == wishlist[i];
            }
          }
        }
      }
      Success(added)
  }

  /** Adding the same session twice: the first call succeeds, the second is
      refused. */
  lemma AddTwiceRefused(wishlist: seq<Token>, sessions: set<Token>, key: Token)
    requires key in sessions && key !in wishlist
    ensures AddSessionToWishlist(wishlist, sessions, key) == Success(wishlist + [key])
    ensures AddSessionToWishlist(wishlist + [key], sessions, key) == Failure(BadRequest(AlreadyInWishlist))
  {
    assert (wishlist + [key])[|wishlist|] == key;
  }

  /** Adding a session and then deleting it gives back the wishlist. */
  lemma AddThenDelete(wishlist: seq<Token>, sessions: set<Token>, key: Token)
    requires AddSessionToWishlist(wishlist, sessions, key).Success?
    ensures Lists.RemoveFirst(AddSessionToWishlist(wishlist, sessions, key).value, key) == wishlist
  {
    Lists.RemoveAppended(wishlist, key);
  }
}

=== FILE: wrappers.dfy ===
/** Option and Result, the two failure-aware wrappers the rest of the model
    returns. Result supports Dafny's `:-` operator so that an error raised part
    way through an operation propagates unchanged to its caller. */
module Wrappers {

  /** A value that may be absent: Python's `None` or a present value. */
  datatype Option<+T> = None | Some(value: T) {

    /** The present value, or `default` when absent. */
    function GetOr(default: T): T {
      match this
      case Some(v) => v
      case None => default
    }
  }

  /** The outcome of an operation that may raise: a value, or the error raised. */
  datatype Result<+T, +E> = Success(value: T) | Failure(error: E) {

    predicate IsFailure() {
      Failure?
    }

    function PropagateFailure<U>(): Result<U, E>
      requires Failure?
    {
      Failure(error)
    }

    function Extract(): T
      requires Success?
    {
      value
    }
  }
}
